=== FILE: README.md ===
# Tera-api core, modelled in Dafny

Tera-api is a small HTTP service that lists the files of a TeraBox shared
folder and proxies downloads of them. It drives a headless browser to the
folder page, with the operator's cookie installed, watches the JSON the page
loads, and pulls file-like records out of it. `POST /resolve` takes one of
those files, probes its direct URL for metadata and hands back a link to
`GET /stream`, which relays the upstream body.

This project models the decision logic of `src/server.js` and proves
properties of it. The browser, Express and `fetch` stay outside: observed
responses are given as a sequence, and upstream replies come from a function
passed as a parameter.

- `Cookies`: how the operator's `Cookie` string becomes browser cookies,
  once for the bare host and once for `"." + host`. Proved: a round trip from
  well-formed name/value pairs, and the two-scope layout.
- `Extractor`: the `page.on("response")` callback. It is a class,
  `FileCollector`, holding `foundFiles` and `seen`. Its method is proved
  against `Observe`, a function over a value state; `ListFolderFiles` runs it
  over the responses in arrival order and applies the 200-entry cap. Proved:
  - the dedup invariant (`seen` is exactly the keys of `foundFiles`, and the
    keys are distinct);
  - a response handled twice adds nothing, and replaying a whole crawl adds
    nothing;
  - entries are only ever appended;
  - the or-chains and `??` chains equal a priority table of field aliases.
- `Resolve`: how `/resolve` picks a file (`NO_FILES_FOUND`, `BAD_PICK`,
  `NO_DIRECT_URL`, or go on) and the stream link it returns.
- `Metadata`: the HEAD probe with its ranged-GET fallback, `Content-Disposition`
  filename parsing (the regular expression worked out as a parser, backtracking
  included), and the name taken from the URL path.
- `Stream`: the status and headers of the `/stream` reply.
- Support modules:
  - `Text`: JavaScript's `split`, `trim`, `indexOf`, `includes` and decimal
    numerals;
  - `Uri`: `encodeURIComponent` and `decodeURIComponent`, including their UTF-8
    checks, with a decode-after-encode round trip;
  - `JsonValue`: parsed JSON, truthiness, `?.`, `||`, `??`, and
    template-literal string conversion;
  - `Http`: header lookup.

Points where the code does something a caller might not expect. The model
follows the code in each:

- A successful `/stream` reply never sets a status, so it goes out as 200,
  even when upstream answered 206 with a partial body. See `Stream.Respond`,
  which models `src/server.js:155-170`. The relay of the body itself
  (`upstream.body.pipe(res)` at line 172) is not modelled. The body that
  undici's `fetch` returns is a web `ReadableStream`, which has no `pipe`
  method, so as written that line would throw after the headers are set and
  no body would be relayed.
- The crawl result depends on the order in which responses arrive. The code
  keeps the first record seen for each key, so a direct URL that only a later
  response carries is lost. See `Extractor.ArrivalOrderMatters`.
- `getMetadata` never looks at the final status: it reads the headers of
  whatever came back, an error reply included. See `Metadata.GetMetadata`.
- There is no `try`/`finally` around the navigation in `listFolderFiles`: when
  `page.goto` fails, `browser.close()` is never reached.

Also worth knowing:

- The dedup key is the text `${id}:${name}`, so the id `7` (a number) and the
  id `"7"` (a string) are the same file (`Extractor.NumericAndTextIdsCollide`).
  An id whose text holds a `:` can also collide with a different id and name
  (`Extractor.ColonInIdCollides`); without such a `:` the key identifies the
  id text and the name text (`Extractor.KeySeparates`).
- After a refused HEAD, the size comes from the `Content-Length` of the
  one-byte ranged response.

## Model

| member | source | states |
|---|---|---|
| Text.Split | src/server.js:190 | `split(";")` gives at least one piece, and no piece contains the separator |
| Text.JoinSplit | src/server.js:190 | joining the pieces of `split` with the separator gives back the input |
| Text.SplitJoin | src/server.js:190 | splitting a join of separator-free pieces gives back the pieces |
| Text.Trim | src/server.js:191 | `trim` strips exactly the leading and trailing JavaScript white space, and the result is a slice of the input |
| Text.TrimPadded | src/server.js:191 | `trim` of white space + core + white space, where the core has no space at its borders, is the core |
| Text.IndexOf | src/server.js:194 | `indexOf` is -1 exactly when the character is absent, and is otherwise its first position |
| Text.LastPieceIsFinalSegment | src/server.js:300 | `split("/").pop()` is the longest `/`-free suffix of the path |
| Text.LastPieceAfter | src/server.js:300 | after a final `/`, the last piece is exactly the text that follows it |
| Text.ParseNatToDecimal | src/server.js:281 | reading back the decimal numeral of a count gives the count |
| Text.IntToDecimalInjective | src/server.js:248 | distinct integers have distinct decimal text |
| Uri.Utf8Decodes | src/server.js:291 | the UTF-8 encoding of a scalar value is one octet for ASCII, otherwise a well-formed sequence of the same value |
| Uri.DecodeComponent | src/server.js:291 | `decodeURIComponent` fails (throws) or yields text no longer than its input, and non-empty for non-empty input |
| Uri.DecodePlain | src/server.js:301 | text without `%` decodes to itself |
| Uri.DecodeAfterPlain | src/server.js:291 | decoding passes a `%`-free prefix through unchanged |
| Uri.OctetRead | src/server.js:291 | `%` and two hex digits read as the octet they spell |
| Uri.EscapeFailureFails | src/server.js:291 | a `%`-free prefix followed by an escape that does not decode makes the whole text fail |
| Uri.BadEscapeFails | src/server.js:291 | `%` not followed by two hex digits makes decoding fail (`URIError`) |
| Uri.AsciiEscapeDecodes | src/server.js:291 | an escape of an octet below `0x80` decodes to that character |
| Uri.StrayContinuationFails | src/server.js:291 | an escape of a continuation octet `0x80`-`0xBF` with no lead fails |
| Uri.LeadWithoutContinuationFails | src/server.js:291 | a lead octet `0xC0`-`0xF7` not followed by another escape fails |
| Uri.TwoOctetEscapeDecodes | src/server.js:291 | a lead `0xC2`-`0xDF` escape and a continuation escape decode to the two-octet UTF-8 character |
| Uri.BadContinuationFails | src/server.js:291 | a two-octet lead followed by an escape that is not a continuation octet fails |
| Uri.OverlongFails | src/server.js:291 | the overlong leads `0xC0` and `0xC1` fail |
| Uri.Utf8OfSequence | src/server.js:291 | a well-formed UTF-8 sequence is exactly the encoding of its value |
| Uri.EscapeIsShortestUtf8 | src/server.js:291 | every escape run that decodes spells, one escape per octet, the shortest UTF-8 encoding of the character it yields, so overlong forms, surrogates, values above U+10FFFF and leads `F8`-`FF` all throw |
| Uri.EncodeComponent | src/server.js:114-116 | `encodeURIComponent` output holds only unreserved characters and `%` |
| Uri.DecodeEncode | src/server.js:114-116 | decoding `encodeURIComponent(s)` gives back `s` for every string |
| JsonValue.Get | src/server.js:238 | `item?.key` is defined exactly when `item` is an object holding `key` |
| JsonValue.SingletonArrayConvertsLikeElement | src/server.js:248 | an id that is a one-element array has the same key text as its element |
| Cookies.GuessDomain | src/server.js:180-186 | the URL's hostname, or `www.1024tera.com` when the URL does not parse |
| Cookies.ParsePair | src/server.js:193-198 | the name has no `=` and name and value have no surrounding blanks; with no `=` the whole trimmed piece is the name and the value is empty; the domain is the given one and the path is `/` |
| Cookies.ParseAtFirstEquals | src/server.js:194-196 | a piece `n=v` whose `n` holds no `=` splits at that first `=`: the name is `n` trimmed and the value is all of `v` trimmed, `=` included |
| Cookies.NonEmpty | src/server.js:192 | `.filter(Boolean)` keeps every non-empty piece as often as it occurs, drops every empty one, and adds nothing (multiset equality) |
| Cookies.ParseCookieString | src/server.js:188-199 | one record per non-empty trimmed `;`-piece, each with the given domain and path `/` |
| Cookies.ContextCookiesTwoScopes | src/server.js:210-213 | `ContextCookies`: the installed list has twice as many records: the bare-host list, then the same records scoped to `"." + host` |
| Cookies.PairsOfSerialized | src/server.js:189-192 | splitting, trimming and filtering a serialized header gives exactly its `name=value` pairs |
| Cookies.ParseSerialize | src/server.js:188-199 | a cookie string built from well-formed name/value pairs (values may hold `=`) parses back to exactly those pairs, in order |
| Extractor.Inspect | src/server.js:238-250 | an accepted record has a truthy name and id, a truthy or null direct URL, and its key is `${id}:${name}` |
| JsonValue.ToJsString | src/server.js:248 | converting a value inside the template throws only for objects and arrays; an object throws exactly when it has its own `toString` field |
| JsonValue.ArrayConversionThrows | src/server.js:248 | an array converts unless one of its non-null elements does not convert |
| Extractor.KeySeparates | src/server.js:248 | `KeyOf`, the `${id}:${name}` key: when neither id text holds a `:`, equal keys mean equal id text and equal name text |
| Extractor.NumericIdsKeySeparately | src/server.js:248 | two records with numeric ids share a key only when the ids are the same number and the names have the same text |
| JsonValue.NumberTextInjective | src/server.js:248 | distinct numbers convert to distinct text in the template |
| Extractor.ColonInIdCollides | src/server.js:248-249 | id `x:y` with name `z` and id `x` with name `y:z` have the same key, so the second is skipped as already seen |
| Extractor.CandidatesFollowTable | src/server.js:229-235 | `Candidates`: the candidate array is the first of `list`, `data.list`, `data` that is an array, or none |
| Extractor.FirstArrayIsFirst | src/server.js:229-233 | the path lookup returns the array at the first path, in priority order, that holds one |
| Extractor.FirstArrayNone | src/server.js:233-235 | with no path holding an array, nothing is returned |
| Extractor.InspectFollowsTable | src/server.js:238-250 | a record is skipped exactly when no name alias is truthy; otherwise name, direct URL and id come from the first truthy alias and size from the first alias that is not nullish, the record ends its response exactly when the key of that descriptor cannot be built, and is otherwise kept under that key |
| Extractor.InspectNamedWithUrl | src/server.js:238-250 | `{ name, dlink }` is keyed `name:name` with `name` as id and `dlink` as direct URL |
| Extractor.InspectNamedOnly | src/server.js:238-250 | `{ name }` alone is keyed `name:name` with a null direct URL |
| Extractor.FirstTruthyIsFirst | src/server.js:238 | an or-chain (`a or b`) yields the first alias whose value is truthy |
| Extractor.FirstTruthyNone | src/server.js:242 | an or-chain with no truthy alias yields its fallback |
| Extractor.FirstPresentIsFirst | src/server.js:239 | a `??` chain yields the first alias that is not null or undefined, so a size of `0` is kept |
| Extractor.KeysAppend | src/server.js:250-252 | pushing a descriptor adds exactly its key to the key set |
| Extractor.AddKeepsConsistent | src/server.js:248-252 | adding an unseen key with its descriptor keeps `seen` equal to the keys of `foundFiles`, with all keys distinct |
| Extractor.Absorb | src/server.js:237-256 | the record loop keeps the dedup invariant, only appends, and only grows `seen` |
| Extractor.AbsorbKeeps | src/server.js:237-256 | the loop appends exactly the descriptors of the records it keeps, in order: a record is kept when no earlier record's key failed to build, it is keyed, and its key is neither in `seen` nor the key of an earlier record, so of two records with one key the first wins |
| Extractor.AbsorbReaches | src/server.js:237-256 | the loop adds to `seen` exactly the keys of the keyed records before the first record whose key fails to build |
| Extractor.Observe | src/server.js:221-257 | one callback keeps the dedup invariant, only appends, and only grows `seen` |
| Extractor.ObserveKeeps | src/server.js:221-256 | one callback appends exactly the kept records of the array its JSON response offers, and adds exactly the keys it reaches |
| Extractor.ObserveAll | src/server.js:221-257 | a sequence of callbacks keeps the dedup invariant and only appends |
| Extractor.ObserveAllKeeps | src/server.js:221-256 | a sequence of callbacks appends exactly the kept records of each response in turn, each response judged against the keys reached by the ones before it |
| Extractor.ExtractKeeps | src/server.js:217-256 | the crawl's `foundFiles` is exactly the kept records of its responses, starting from no keys |
| Extractor.CoveredGrows | src/server.js:249 | records skipped as already seen stay skipped as `seen` grows |
| Extractor.AbsorbCovers | src/server.js:248-252 | after a response is handled, every record of it before any failed key is in `seen` or nameless |
| Extractor.AbsorbCovered | src/server.js:247-249 | records that are all nameless or already seen change nothing |
| Extractor.ObserveIdempotent | src/server.js:248-252 | handling the same response a second time leaves the state unchanged |
| Extractor.ObserveCovers | src/server.js:221-257 | after a response is handled, its records are all seen or skipped |
| Extractor.ObserveAllCovers | src/server.js:221-257 | after a crawl, the records of every response are seen or skipped |
| Extractor.ObserveAllCovered | src/server.js:247-249 | responses whose records are all seen or skipped leave the state unchanged |
| Extractor.ReplayAddsNothing | src/server.js:248-252 | replaying every response of a crawl (a page that re-polls) adds nothing |
| Extractor.AbortKeepsEarlierRecords | src/server.js:248-256 | a record whose key cannot be built ends its response, keeping the records pushed before it and ignoring the rest |
| Extractor.ObserveAllSplit | src/server.js:221 | handling responses in two batches is the same as handling them all in order |
| Extractor.ExtractGrowsByAppending | src/server.js:252 | what earlier responses produced is a prefix of the final list, so first-seen order is kept |
| Extractor.ListingIsDeduplicatedPrefix | src/server.js:263 | `Cap`, the `slice(0, 200)`: the returned list has length min(found, 200), is a prefix of `foundFiles`, and is well formed with distinct keys |
| Extractor.OnlyJsonArraysContribute | src/server.js:223-235 | a response changes the state only if its content type includes `application/json` (`Text.Includes`, the `includes` test) and its parsed body offers an array |
| Extractor.NumericAndTextIdsCollide | src/server.js:248-249 | the numeric id 7 and the string id "7" with the same name are one file; only the first is kept |
| Extractor.ArrivalOrderMatters | src/server.js:248-252 | the two arrival orders of two responses about one file give different listings |
| Extractor.FileCollector.constructor | src/server.js:217-218 | a crawl starts with empty `foundFiles` and `seen` |
| Extractor.FileCollector.OnResponse | src/server.js:221-257 | the imperative callback updates `foundFiles` and `seen` exactly as `Observe` does and keeps the dedup invariant |
| Extractor.ListFolderFiles | src/server.js:201-264 | the context gets the two-scope cookie list, and the result is the capped list of records extracted from the responses in arrival order |
| Resolve.PickIndex | src/server.js:81 | an integer pick is used as is; anything else means 0 |
| Resolve.ResolvePick | src/server.js:84-111 | `NO_FILES_FOUND` exactly for an empty list; otherwise `BAD_PICK` exactly when the index is out of range, naming the last index; otherwise `NO_DIRECT_URL` exactly when the picked file's direct URL is falsy; otherwise that URL |
| Resolve.ThreeFilePicks | src/server.js:89-96 | with three files, picks 3 and -1 are rejected and pick 2, a missing pick and a string pick are not |
| Resolve.ListingPicks | src/server.js:101-111 | on a crawl's listing, a picked file with a null direct URL gives `NO_DIRECT_URL`, and one with a direct URL resolves to it |
| Resolve.StreamUrlCarriesDirectUrl | src/server.js:114-116 | the `url` parameter of the stream link runs to its end, has no `&` or `#`, and decodes to the direct URL |
| Stream.DownstreamHeaders | src/server.js:164-170 | `Content-Type` is always set, to the upstream value or `application/octet-stream`; `Content-Length` and `Content-Disposition` are set exactly when upstream sent a non-empty value, and copied |
| Stream.Respond | src/server.js:155-170 | a non-2xx upstream status is surfaced with that status; otherwise the relay goes out as 200 with the selected headers |
| Stream.PartialContentMirrorsHeaders | src/server.js:164-170 | a 206 with all three headers is relayed as 200 with the same three headers |
| Metadata.RunEnd | src/server.js:288 | `[^";]+` taken greedily stops at the first `"` or `;`, or at the end |
| Metadata.ValueAt | src/server.js:288 | the captured value is never empty and never holds `"` or `;` |
| Metadata.MatchAt | src/server.js:288 | a match at a position needs `filename` there, ignoring case, and captures a value |
| Metadata.FirstMatch | src/server.js:288 | when `exec` finds nothing, no position matches |
| Metadata.FirstMatchNone | src/server.js:288 | when no position matches, `exec` finds nothing |
| Metadata.FirstMatchIsLeftmost | src/server.js:288 | `exec` returns the match at the leftmost matching position |
| Metadata.UnclosedQuoteNoMatch | src/server.js:288 | `filename="` with no `"` after it matches nowhere, so when no other position matches, the regular expression gives no match |
| Metadata.UnclosedQuoteGivesNoName | src/server.js:288-289 | a header whose quoted filename is never closed, and with no other matching `filename`, yields `null` |
| Metadata.FilenameFromDisposition | src/server.js:286-295 | a missing or empty header gives no name; a name that results is never empty |
| Metadata.FirstMatchSkips | src/server.js:288 | positions where `filename` does not start do not change the leftmost match |
| Metadata.NoParameterNoFilename | src/server.js:288-289 | a header without `filename`, in any case, gives no name |
| Metadata.SkipText | src/server.js:288 | text with no `f` or `F` cannot hold the start of a match |
| Metadata.TokenToEnd | src/server.js:288 | an unquoted value that reaches the end of the header is captured whole |
| Metadata.ExtendedMatchAt | src/server.js:288 | `filename*=UTF-8''` followed by a value matches and captures the value |
| Metadata.QuotedMatchAt | src/server.js:288 | `filename="…"` matches and captures the text between the quotes |
| Metadata.ExtendedCaptures | src/server.js:288 | the extended form, after text without `f`, is the leftmost match |
| Metadata.QuotedCaptures | src/server.js:288 | the quoted form, after text without `f`, is the leftmost match |
| Metadata.ExtendedFilenameRoundTrip | src/server.js:286-291 | `attachment; filename*=UTF-8''` + `encodeURIComponent(name)` yields `name` for every non-empty name |
| Metadata.QuotedFilename | src/server.js:288-294 | a quoted filename is percent-decoded when it decodes and returned raw when it does not |
| Metadata.PlainQuotedFilename | src/server.js:288-291 | a quoted filename without `%` comes back unchanged |
| Metadata.MalformedEscapeKeptRaw | src/server.js:290-294 | `filename="100%.txt"` fails to decode, so the raw `100%.txt` is the name |
| Metadata.EscapeOfDiaeresisI | src/server.js:291 | `ï` is escaped as `%C3%AF` |
| Metadata.NaiveEscapesDecode | src/server.js:291 | `na` + `%C3%AF` + `ve.txt` decodes to `naïve.txt` |
| Metadata.NaiveDecodes | src/server.js:286-291 | `attachment; filename*=UTF-8''na%C3%AFve.txt` names the file `naïve.txt` |
| Metadata.NameFromUrl | src/server.js:297-305 | the name from the URL is never empty; its three placeholder cases and the decoded case are stated by the lemmas below |
| Metadata.NameFromEncodedSegment | src/server.js:299-301 | a path ending in `/` + `encodeURIComponent(name)` gives `name` |
| Metadata.NameFromDirectoryPath | src/server.js:300 | a path ending in `/` gives `download` |
| Metadata.NameFromUnparsableUrl | src/server.js:298-304 | a URL that does not parse gives `download` |
| Metadata.NameFromUndecodableSegment | src/server.js:301-303 | a non-empty last segment that fails to percent-decode gives `download`, not the raw segment |
| Metadata.NameFromDecodedSegment | src/server.js:300-301 | a non-empty last segment that decodes gives its decoding |
| Metadata.MalformedSegmentGivesPlaceholder | src/server.js:298-304 | the path `/100%.txt` gives `download` |
| Metadata.SizeOf | src/server.js:281 | a decimal `Content-Length`, white space aside, is read as that count; blank text is 0; other text is kept unread |
| Metadata.Describe | src/server.js:275-283 | `mime` is null exactly when the header is missing or empty, and otherwise copied; `size` is null exactly when `Content-Length` is missing or empty; the name is the disposition filename if there is one, else the name from the URL, and never empty |
| Metadata.GetMetadata | src/server.js:266-283 | a HEAD is always issued; exactly one ranged GET for `bytes=0-0` follows, and only when HEAD got 405 or 403; the metadata is read from the last response |
| Metadata.HeadRefusedFallsBack | src/server.js:267-283 | with HEAD refused by 405, the requests are HEAD then the ranged GET, and MIME and size come from the GET's headers |
| Metadata.NoFilenameParameterUsesPath | src/server.js:282 | without a disposition header, or with one that has no `filename`, the name is the one from the URL path |

## Left out

- Express routing, request-body parsing, the `MISSING_URL` / `MISSING_SERVER_COOKIE` / `SERVER_ERROR` replies, the `/health` and `/` endpoints, and `app.listen`: these are HTTP plumbing.
- Playwright: launching the browser, the context, `page.goto` with its 60-second timeout, the 6-second wait, and closing, including a failed `page.goto` that leaves the browser open. These are foreign calls and timing. The model takes the responses the page produced as a sequence, in the order their bodies arrived, and handles each one completely before the next.
- `fetch` and the piping of the upstream body (`src/server.js:172`): network I/O. Upstream replies come from a function passed as a parameter; the model keeps only the status and the headers, so the failure of `pipe` on a web stream body is not represented.
- `new URL(...)`: a library. The hostname (for `guessDomain`) and the pathname (for `nameFromUrl`) are given as inputs, with `None` meaning the URL does not parse. The percent-encoding the URL parser applies to the path is not modelled.
- `process.env` reads are inputs. The cookie string is a parameter; the port is not modelled.
- JSON numbers are integers; fractions, exponents and their text form are not modelled. `JNum` stands for a number `JSON.parse` reads exactly (magnitude at most 2^53): the rounding of longer integers (so that `9007199254740993` and `9007199254740992` give one key) and the exponent text `String` writes from 1e21 on are not modelled. A response body is given already parsed, with `None` when `resp.json()` throws.
- JsonValue.NumberTextInjective: holds of the model's exact integers; in JavaScript two ids above 2^53 can parse to one number and convert to one text.
- Extractor.NumericIdsKeySeparately: holds of the model's exact integers, for the same reason.
- Metadata.SizeOf: `Number(...)` is evaluated only for decimal digits with white space around them, and for blank text. Signs, fractions, exponents, hexadecimal, `Infinity` and NaN are kept as the raw header text, not converted.
- Metadata.GetMetadata: a `fetch` that throws (network failure, a direct URL that is not a URL) is not modelled; the oracle always answers.
- Header values are taken as text as given. The Latin-1 byte view of header values used by `fetch` is not modelled.
- `req.protocol` and the `Host` header are given as text to `Resolve.StreamUrl`. A non-string direct URL converted inside the template is not modelled: the link is built from a string.
- Strings are sequences of Unicode scalar values, not of UTF-16 code units. A lone surrogate, which `JSON.parse` can produce and on which `encodeURIComponent` throws (line 114, reported as `SERVER_ERROR`), cannot be represented.
- Cookies.NonEmpty: its contract states which pieces are kept and how often, not their order; the order is fixed by its definition and used by `Cookies.ParseSerialize`.

=== FILE: cookies.dfy ===
/** The cookie adapter: a `Cookie`-header style string (`name=value; name2=value2`,
    loosely as in section 4.2.1 of RFC 6265) turned into browser cookie records,
    installed once for the folder's host and once for its `.host` parent scope. */
module Cookies {
  import opened Wrappers
  import opened Text

  /** A browser cookie record `{ name, value, domain, path }`. */
  datatype Cookie = Cookie(name: string, value: string, domain: string, path: string)

  /** The origin assumed when the folder URL does not parse. */
  const FallbackHost := "www.1024tera.com"

  /** `guessDomain`: the folder URL's host name (`None`: `new URL` threw), else the
      fixed origin. */
  function GuessDomain(hostname: Option<string>): (d: string)
    ensures hostname.Some? ==> d == hostname.value
    ensures hostname.None? ==> d == FallbackHost
  {
    match hostname
    case Some(h) => h
    case None => FallbackHost
  }

  /** One trimmed, non-empty piece split at its first `=`: the name is the trimmed
      text before it and the value the trimmed text after it (which may itself hold
      `=`); with no `=` the whole piece is the name and the value is empty. */
  function ParsePair(pair: string, domain: string): (c: Cookie)
    ensures c.domain == domain && c.path == "/"
    ensures '=' !in c.name
    ensures NoBorderSpace(c.name) && NoBorderSpace(c.value)
    ensures '=' !in pair ==> c.name == Trim(pair) && c.value == ""
  {
    var i := IndexOf(pair, '=');
    if i > -1 then
      TrimKeepsOut(pair[..i], '=');
      Cookie(Trim(pair[..i]), Trim(pair[i + 1..]), domain, "/")
    else
      TrimKeepsOut(pair, '=');
      Cookie(Trim(pair), "", domain, "/")
  }

  /** Every piece trimmed (`.map((p) => p.trim())`). */
  function TrimAll(parts: seq<string>): seq<string> {
    seq(|parts|, i requires 0 <= i < |parts| => Trim(parts[i]))
  }

  /** The non-empty pieces, in order (`.filter(Boolean)`). */
  function NonEmpty(parts: seq<string>): (r: seq<string>)
    ensures |r| <= |parts|
    ensures forall i :: 0 <= i < |r| ==> r[i] != ""
    ensures multiset(r) == multiset(parts)["" := 0]
  {
    if parts == [] then []
    else
      assert parts == [parts[0]] + parts[1..];
      if parts[0] == "" then NonEmpty(parts[1..])
      else [parts[0]] + NonEmpty(parts[1..])
  }

  /** The pieces that yield a cookie: split on `;`, trimmed, empty ones dropped. */
  function Pairs(cookieStr: string): seq<string> {
    NonEmpty(TrimAll(Split(cookieStr, ';')))
  }

  /** `cookieStringToPlaywrightCookies(cookieStr, domain)`. */
  function ParseCookieString(cookieStr: string, domain: string): (r: seq<Cookie>)
    ensures |r| == |Pairs(cookieStr)|
    ensures forall i :: 0 <= i < |r| ==> r[i].domain == domain && r[i].path == "/"
  {
    var pairs := Pairs(cookieStr);
    seq(|pairs|, i requires 0 <= i < |pairs| => ParsePair(pairs[i], domain))
  }

  /** The cookies installed in the browser context: the parsed list scoped to the
      bare host followed by the same list scoped to `"." + host`. */
  function ContextCookies(cookieStr: string, hostname: Option<string>): seq<Cookie> {
    var domain := GuessDomain(hostname);
    ParseCookieString(cookieStr, domain) + ParseCookieString(cookieStr, "." + domain)
  }

  /** The two halves of the installed list hold the same cookies, in the same order,
      differing only in their domain; the list is exactly twice as long as the
      number of pieces that yield a cookie. */
  lemma ContextCookiesTwoScopes(cookieStr: string, hostname: Option<string>)
    ensures var r := ContextCookies(cookieStr, hostname);
            var n := |Pairs(cookieStr)|;
            var d := GuessDomain(hostname);
            && |r| == 2 * n
            && (forall i :: 0 <= i < n ==> r[i] == ParsePair(Pairs(cookieStr)[i], d))
            && (forall i :: 0 <= i < n ==> r[n + i] == r[i].(domain := "." + d))
  {
    var pairs := Pairs(cookieStr);
    var n := |pairs|;
    var d := GuessDomain(hostname);
    var a := ParseCookieString(cookieStr, d);
    var b := ParseCookieString(cookieStr, "." + d);
    var r := ContextCookies(cookieStr, hostname);
    assert r == a + b;
    assert |a| == n && |b| == n;
    forall i | 0 <= i < n ensures r[i] == ParsePair(pairs[i], d) {
      assert r[i] == a[i];
    }
    forall i | 0 <= i < n ensures r[n + i] == r[i].(domain := "." + d) {
      assert r[n + i] == b[i] == ParsePair(pairs[i], "." + d);
      assert r[i] == a[i];
      ParsePairDomain(pairs[i], d, "." + d);
    }
  }

  /** The domain is stamped on; it takes no part in parsing. */
  lemma ParsePairDomain(pair: string, d1: string, d2: string)
    ensures ParsePair(pair, d2) == ParsePair(pair, d1).(domain := d2)
  {
  }

  // ---------------------------------------------------------------- round trip

  /** A name and value the header syntax can carry unambiguously: a non-empty name
      without `=` or `;`, a value without `;` (it may contain `=`), and neither
      with white space at its ends. */
  predicate WellFormedPair(p: (string, string)) {
    && p.0 != [] && '=' !in p.0 && ';' !in p.0 && NoBorderSpace(p.0)
    && ';' !in p.1 && NoBorderSpace(p.1)
  }

  /** The pieces of a serialized header: `name=value`, every one but the first
      preceded by a space. */
  function SerializedPieces(pairs: seq<(string, string)>): seq<string> {
    seq(|pairs|, i requires 0 <= i < |pairs| => (if i == 0 then "" else " ") + pairs[i].0 + "=" + pairs[i].1)
  }

  /** `name1=value1; name2=value2; ...`. */
  function Serialize(pairs: seq<(string, string)>): string {
    Join(SerializedPieces(pairs), ';')
  }

  lemma {:induction false} NonEmptyKeepsAll(parts: seq<string>)
    requires forall i :: 0 <= i < |parts| ==> parts[i] != ""
    ensures NonEmpty(parts) == parts
  {
    if parts != [] {
      NonEmptyKeepsAll(parts[1..]);
      assert [parts[0]] + parts[1..] == parts;
    }
  }

  function Plain(p: (string, string)): string {
    p.0 + "=" + p.1
  }

  /** Only the first `=` splits a piece: the value keeps any later `=`. */
  lemma ParseAtFirstEquals(n: string, v: string, domain: string)
    requires '=' !in n
    ensures ParsePair(n + "=" + v, domain) == Cookie(Trim(n), Trim(v), domain, "/")
  {
    var t := n + "=" + v;
    assert t[..|n|] == n;
    assert t[|n|] == '=';
    assert IndexOf(t, '=') == |n|;
    assert t[|n| + 1..] == v;
  }

  /** A well-formed pair written `name=value` parses back to itself. */
  lemma ParsePlain(p: (string, string), domain: string)
    requires WellFormedPair(p)
    ensures ParsePair(Plain(p), domain) == Cookie(p.0, p.1, domain, "/")
  {
    ParseAtFirstEquals(p.0, p.1, domain);
    TrimUntouched(p.0);
    TrimUntouched(p.1);
  }

  /** Trimming a serialized piece removes exactly the separating space. */
  lemma TrimPiece(pairs: seq<(string, string)>, i: nat)
    requires i < |pairs| && WellFormedPair(pairs[i])
    ensures Trim(SerializedPieces(pairs)[i]) == Plain(pairs[i])
  {
    var t := Plain(pairs[i]);
    var n, v := pairs[i].0, pairs[i].1;
    assert t[0] == n[0];
    assert t[|t| - 1] == if v == [] then '=' else v[|v| - 1];
    var pre := if i == 0 then "" else " ";
    assert SerializedPieces(pairs)[i] == pre + t + "";
    TrimPadded(pre, t, "");
  }

  /** Splitting a serialized header on `;` gives back its pieces. */
  lemma SplitSerialized(pairs: seq<(string, string)>)
    requires |pairs| >= 1
    requires forall i :: 0 <= i < |pairs| ==> WellFormedPair(pairs[i])
    ensures Split(Serialize(pairs), ';') == SerializedPieces(pairs)
  {
    var pieces := SerializedPieces(pairs);
    forall i | 0 <= i < |pieces| ensures ';' !in pieces[i] {
      assert pieces[i] == (if i == 0 then "" else " ") + pairs[i].0 + "=" + pairs[i].1;
    }
    SplitJoin(pieces, ';');
  }

  /** Every pair written `name=value`. */
  function PlainAll(pairs: seq<(string, string)>): (r: seq<string>)
    ensures |r| == |pairs| && forall i :: 0 <= i < |pairs| ==> r[i] == Plain(pairs[i])
  {
    seq(|pairs|, i requires 0 <= i < |pairs| => Plain(pairs[i]))
  }

  /** The pieces of a serialized header that yield a cookie are its pairs. */
  lemma PairsOfSerialized(pairs: seq<(string, string)>)
    requires forall i :: 0 <= i < |pairs| ==> WellFormedPair(pairs[i])
    ensures Pairs(Serialize(pairs)) == PlainAll(pairs)
  {
    var plain := PlainAll(pairs);
    if pairs == [] {
      assert Serialize(pairs) == "";
      assert Trim("") == "";
      assert TrimAll(Split("", ';')) == [""];
    } else {
      SplitSerialized(pairs);
      forall i | 0 <= i < |pairs| ensures TrimAll(SerializedPieces(pairs))[i] == plain[i] {
        TrimPiece(pairs, i);
      }
      assert TrimAll(Split(Serialize(pairs), ';')) == plain;
      NonEmptyKeepsAll(plain);
    }
  }

  /** Parsing a serialized header gives back its names and values, in order. */
  lemma ParseSerialize(pairs: seq<(string, string)>, domain: string)
    requires forall i :: 0 <= i < |pairs| ==> WellFormedPair(pairs[i])
    ensures var r := ParseCookieString(Serialize(pairs), domain);
            && |r| == |pairs|
            && forall i :: 0 <= i < |pairs| ==> r[i] == Cookie(pairs[i].0, pairs[i].1, domain, "/")
  {
    var plain := PlainAll(pairs);
    PairsOfSerialized(pairs);
    forall i | 0 <= i < |pairs|
      ensures ParsePair(plain[i], domain) == Cookie(pairs[i].0, pairs[i].1, domain, "/")
    {
      ParsePlain(pairs[i], domain);
    }
  }
}

=== FILE: extractor.dfy ===
/** The heuristic file extractor and the crawl around it: every JSON response the
    browser observes is searched for a list of file-like records, each record is
    normalised into a file descriptor, and descriptors are kept in first-seen order,
    deduplicated on the text `${id}:${name}`. The crawl returns at most 200 of them. */
module Extractor {
  import opened Wrappers
  import opened JsonValue
  import Text
  import Cookies

  /** The media type a response must mention to be inspected. */
  const JsonMediaType := "application/json"

  /** The fixed cap on the number of descriptors a crawl returns. */
  const MaxFiles := 200

  /** A normalised record `{ id, name, size, directUrl }`; a missing size or direct
      URL is `JNull`. */
  datatype FileDescriptor = FileDescriptor(id: Json, name: Json, size: Json, directUrl: Json)

  /** One response seen by the browser: its `content-type` header, if any, and its
      body as parsed JSON (`None`: `resp.json()` threw). */
  datatype ObservedResponse = ObservedResponse(contentType: Option<string>, body: Option<Json>)

  // ---------------------------------------------------------------- one record

  /** The record array a response body offers: top-level `list`, else `data.list`,
      else `data` itself, whichever is an array first. */
  function Candidates(data: Json): Option<seq<Json>> {
    var body := Some(data);
    if IsArray(Get(body, "list")) then Some(Get(body, "list").value.elems)
    else if IsArray(Get(Get(body, "data"), "list")) then Some(Get(Get(body, "data"), "list").value.elems)
    else if IsArray(Get(body, "data")) then Some(Get(body, "data").value.elems)
    else None
  }

  /** The dedup key `${id}:${name}`, or `None` when converting either part throws. */
  function KeyOf(d: FileDescriptor): Option<string> {
    match (ToJsString(d.id), ToJsString(d.name))
    case (Some(i), Some(n)) => Some(i + ":" + n)
    case _ => None
  }

  /** Where the id's text holds no `:`, equal keys mean equal id text and equal
      name text: the key then identifies the pair. */
  lemma KeySeparates(d1: FileDescriptor, d2: FileDescriptor)
    requires KeyOf(d1).Some? && KeyOf(d1) == KeyOf(d2)
    requires ':' !in ToJsString(d1.id).value && ':' !in ToJsString(d2.id).value
    ensures ToJsString(d1.id) == ToJsString(d2.id)
    ensures ToJsString(d1.name) == ToJsString(d2.name)
  {
    var i1, n1 := ToJsString(d1.id).value, ToJsString(d1.name).value;
    var i2, n2 := ToJsString(d2.id).value, ToJsString(d2.name).value;
    assert i1 + ":" + n1 == i2 + ":" + n2;
    Text.JoinedAtFirst(i1, n1, i2, n2, ':');
  }

  /** Records with numeric ids share a key only when the ids are the same number
      and the names have the same text. */
  lemma NumericIdsKeySeparately(d1: FileDescriptor, d2: FileDescriptor)
    requires d1.id.JNum? && d2.id.JNum?
    requires KeyOf(d1).Some? && KeyOf(d1) == KeyOf(d2)
    ensures d1.id == d2.id
    ensures ToJsString(d1.name) == ToJsString(d2.name)
  {
    NumberTextHasNoColon(d1.id.n);
    NumberTextHasNoColon(d2.id.n);
    KeySeparates(d1, d2);
    JsonValue.NumberTextInjective(d1.id.n, d2.id.n);
  }

  lemma NumberTextHasNoColon(n: int)
    ensures ':' !in Text.IntToDecimal(n)
  {
    var s := Text.IntToDecimal(n);
    if n < 0 {
      assert s == "-" + Text.NatToDecimal(-n);
      forall k | 0 <= k < |s| ensures s[k] != ':' {
        if k > 0 { assert s[k] == Text.NatToDecimal(-n)[k - 1]; }
      }
    } else {
      forall k | 0 <= k < |s| ensures s[k] != ':' {
        assert Text.IsDigit(s[k]);
      }
    }
  }

  /** An id whose text holds a `:` can make two different records share a key:
      id `x:y` with name `z`, and id `x` with name `y:z`. */
  lemma ColonInIdCollides(x: string, y: string, z: string, size: Json, url: Json)
    ensures KeyOf(FileDescriptor(JStr(x + ":" + y), JStr(z), size, url))
         == KeyOf(FileDescriptor(JStr(x), JStr(y + ":" + z), size, url))
  {
    assert (x + ":" + y) + ":" + z == x + ":" + (y + ":" + z);
  }

  /** What a descriptor the extractor accepted looks like: a truthy name and id,
      a direct URL that is truthy or null, and a key that converts. */
  predicate WellFormed(d: FileDescriptor) {
    && Truthy(Some(d.name))
    && Truthy(Some(d.id))
    && (d.directUrl.JNull? || Truthy(Some(d.directUrl)))
    && KeyOf(d).Some?
  }

  /** The fate of one candidate record. */
  datatype Inspection =
    | Nameless                                    // `if (!name) continue`
    | Unconvertible                               // building the key threw
    | Keyed(file: FileDescriptor, key: string)

  /** The field-alias rules of one record, then the name check and the key. */
  function Inspect(item: Json): (r: Inspection)
    ensures r.Keyed? ==> WellFormed(r.file) && KeyOf(r.file) == Some(r.key)
  {
    var it := Some(item);
    var name := Or(Or(Get(it, "server_filename"), Get(it, "name")), Get(it, "filename"));
    var size := Coalesce(Coalesce(Get(it, "size"), Get(it, "filesize")), Some(JNull));
    var directUrl := Or(Or(Or(Get(it, "dlink"), Get(it, "downloadUrl")), Get(it, "directUrl")), Some(JNull));
    var id := Or(Or(Or(Get(it, "fs_id"), Get(it, "id")), Get(it, "file_id")), name);
    if !Truthy(name) then Nameless
    else
      var file := FileDescriptor(id.value, name.value, size.value, directUrl.value);
      match KeyOf(file)
      case None => Unconvertible
      case Some(k) => Keyed(file, k)
  }

  // ---------------------------------------------------------------- the crawl state

  /** `foundFiles` and `seen`. */
  datatype Crawl = Crawl(found: seq<FileDescriptor>, seen: set<string>)

  const Empty := Crawl([], {})

  /** The keys of the descriptors in `found`. */
  function Keys(found: seq<FileDescriptor>): set<string> {
    set i | 0 <= i < |found| && KeyOf(found[i]).Some? :: KeyOf(found[i]).value
  }

  /** The dedup invariant: every descriptor is well formed, no two share a key, and
      `seen` is exactly the set of their keys. */
  predicate Consistent(c: Crawl) {
    && (forall i :: 0 <= i < |c.found| ==> WellFormed(c.found[i]))
    && (forall i, j :: 0 <= i < j < |c.found| ==> KeyOf(c.found[i]) != KeyOf(c.found[j]))
    && c.seen == Keys(c.found)
  }

  lemma KeysAppend(found: seq<FileDescriptor>, d: FileDescriptor, k: string)
    requires KeyOf(d) == Some(k)
    ensures Keys(found + [d]) == Keys(found) + {k}
  {
    var f := found + [d];
    forall x | x in Keys(f) ensures x in Keys(found) + {k} {
      var i :| 0 <= i < |f| && KeyOf(f[i]).Some? && KeyOf(f[i]).value == x;
      if i < |found| { assert f[i] == found[i]; }
    }
    forall x | x in Keys(found) + {k} ensures x in Keys(f) {
      if x == k {
        assert KeyOf(f[|found|]).value == x;
      } else {
        var i :| 0 <= i < |found| && KeyOf(found[i]).Some? && KeyOf(found[i]).value == x;
        assert f[i] == found[i];
      }
    }
  }

  /** Appending a well-formed descriptor whose key has not been seen keeps the
      dedup invariant. */
  lemma AddKeepsConsistent(c: Crawl, d: FileDescriptor, k: string)
    requires WellFormed(d) && KeyOf(d) == Some(k) && k !in c.seen
    ensures Consistent(c) ==> Consistent(Crawl(c.found + [d], c.seen + {k}))
  {
    var f := c.found + [d];
    KeysAppend(c.found, d, k);
    if Consistent(c) {
      forall i | 0 <= i < |c.found| ensures KeyOf(f[i]) != Some(k) {
        assert f[i] == c.found[i];
        assert WellFormed(c.found[i]);
        assert KeyOf(c.found[i]).value in Keys(c.found);
      }
    }
  }

  /** The `for (const item of candidates)` loop of one response, as a function:
      items are taken in order; a nameless one is skipped, one whose key is already
      seen is skipped, and one whose key cannot be built ends the response (the
      `catch` swallows the error, keeping what was already pushed). */
  function Absorb(c: Crawl, items: seq<Json>): (r: Crawl)
    ensures Consistent(c) ==> Consistent(r)
    ensures |c.found| <= |r.found| && r.found[..|c.found|] == c.found
    ensures c.seen <= r.seen
    decreases |items|
  {
    if items == [] then c
    else
      match Inspect(items[0])
      case Nameless => Absorb(c, items[1..])
      case Unconvertible => c
      case Keyed(file, key) =>
        if key in c.seen then Absorb(c, items[1..])
        else
          var next := Crawl(c.found + [file], c.seen + {key});
          AddKeepsConsistent(c, file, key);
          var r := Absorb(next, items[1..]);
          assert r.found[..|c.found|] == r.found[..|next.found|][..|c.found|];
          r
  }

  /** The response callback as a function: only a response whose content type
      includes `application/json`, whose body parsed, and which offers a candidate
      array contributes. */
  function Observe(c: Crawl, resp: ObservedResponse): (r: Crawl)
    ensures Consistent(c) ==> Consistent(r)
    ensures |c.found| <= |r.found| && r.found[..|c.found|] == c.found
    ensures c.seen <= r.seen
  {
    var ct := resp.contentType.GetOr("");
    if !Text.Includes(ct, JsonMediaType) then c
    else
      match resp.body
      case None => c
      case Some(data) =>
        match Candidates(data)
        case None => c
        case Some(items) => Absorb(c, items)
  }

  /** The callbacks run one after another in the order the bodies arrive. */
  function ObserveAll(c: Crawl, resps: seq<ObservedResponse>): (r: Crawl)
    ensures Consistent(c) ==> Consistent(r)
    ensures |c.found| <= |r.found| && r.found[..|c.found|] == c.found
    ensures c.seen <= r.seen
    decreases |resps|
  {
    if resps == [] then c
    else
      var next := Observe(c, resps[0]);
      var r := ObserveAll(next, resps[1..]);
      assert r.found[..|c.found|] == r.found[..|next.found|][..|c.found|];
      r
  }

  /** `foundFiles` once every observed response has been handled. */
  function Extract(resps: seq<ObservedResponse>): Crawl {
    ObserveAll(Empty, resps)
  }

  /** `foundFiles.slice(0, 200)`. */
  function Cap(found: seq<FileDescriptor>): seq<FileDescriptor> {
    if |found| <= MaxFiles then found else found[..MaxFiles]
  }

  // ---------------------------------------------------------------- the rules as a table

  /** The extraction rules as data, in priority order: where the record array may
      sit, and which fields each descriptor field is read from. */
  const CandidatePaths: seq<seq<string>> := [["list"], ["data", "list"], ["data"]]
  const NameAliases: seq<string> := ["server_filename", "name", "filename"]
  const SizeAliases: seq<string> := ["size", "filesize"]
  const UrlAliases: seq<string> := ["dlink", "downloadUrl", "directUrl"]
  const IdAliases: seq<string> := ["fs_id", "id", "file_id"]

  /** `v?.p0?.p1...`. */
  function GetPath(v: JsValue, path: seq<string>): JsValue
    decreases |path|
  {
    if path == [] then v else GetPath(Get(v, path[0]), path[1..])
  }

  /** The array at the first path that holds one. */
  function FirstArray(v: JsValue, paths: seq<seq<string>>): Option<seq<Json>>
    decreases |paths|
  {
    if paths == [] then None
    else if IsArray(GetPath(v, paths[0])) then Some(GetPath(v, paths[0]).value.elems)
    else FirstArray(v, paths[1..])
  }

  /** The first truthy field among `keys`, else `fallback`. */
  function FirstTruthy(item: JsValue, keys: seq<string>, fallback: JsValue): JsValue
    decreases |keys|
  {
    if keys == [] then fallback
    else if Truthy(Get(item, keys[0])) then Get(item, keys[0])
    else FirstTruthy(item, keys[1..], fallback)
  }

  /** The first field among `keys` that is neither null nor undefined, else `fallback`. */
  function FirstPresent(item: JsValue, keys: seq<string>, fallback: JsValue): JsValue
    decreases |keys|
  {
    if keys == [] then fallback
    else if !IsNullish(Get(item, keys[0])) then Get(item, keys[0])
    else FirstPresent(item, keys[1..], fallback)
  }

  /** The table lookup picks the array at the first path, in priority order, that
      holds one, and finds nothing when no path does. */
  lemma {:induction false} FirstArrayIsFirst(v: JsValue, paths: seq<seq<string>>, i: nat)
    requires i < |paths| && IsArray(GetPath(v, paths[i]))
    requires forall j :: 0 <= j < i ==> !IsArray(GetPath(v, paths[j]))
    ensures FirstArray(v, paths) == Some(GetPath(v, paths[i]).value.elems)
  {
    if i > 0 {
      assert !IsArray(GetPath(v, paths[0]));
      FirstArrayIsFirst(v, paths[1..], i - 1);
    }
  }

  lemma {:induction false} FirstArrayNone(v: JsValue, paths: seq<seq<string>>)
    requires forall j :: 0 <= j < |paths| ==> !IsArray(GetPath(v, paths[j]))
    ensures FirstArray(v, paths) == None
  {
    if paths != [] {
      assert !IsArray(GetPath(v, paths[0]));
      FirstArrayNone(v, paths[1..]);
    }
  }

  /** The alias lookup yields the field under the first alias whose value is truthy,
      and the fallback when none is. */
  lemma {:induction false} FirstTruthyIsFirst(item: JsValue, keys: seq<string>, fallback: JsValue, i: nat)
    requires i < |keys| && Truthy(Get(item, keys[i]))
    requires forall j :: 0 <= j < i ==> !Truthy(Get(item, keys[j]))
    ensures FirstTruthy(item, keys, fallback) == Get(item, keys[i])
  {
    if i > 0 {
      assert !Truthy(Get(item, keys[0]));
      FirstTruthyIsFirst(item, keys[1..], fallback, i - 1);
    }
  }

  lemma {:induction false} FirstTruthyNone(item: JsValue, keys: seq<string>, fallback: JsValue)
    requires forall j :: 0 <= j < |keys| ==> !Truthy(Get(item, keys[j]))
    ensures FirstTruthy(item, keys, fallback) == fallback
  {
    if keys != [] {
      assert !Truthy(Get(item, keys[0]));
      FirstTruthyNone(item, keys[1..], fallback);
    }
  }

  /** The nullish lookup yields the field under the first alias that is neither
      null nor undefined, so a present `0` wins; the fallback when there is none. */
  lemma {:induction false} FirstPresentIsFirst(item: JsValue, keys: seq<string>, fallback: JsValue, i: nat)
    requires i < |keys| && !IsNullish(Get(item, keys[i]))
    requires forall j :: 0 <= j < i ==> IsNullish(Get(item, keys[j]))
    ensures FirstPresent(item, keys, fallback) == Get(item, keys[i])
  {
    if i > 0 {
      assert IsNullish(Get(item, keys[0]));
      FirstPresentIsFirst(item, keys[1..], fallback, i - 1);
    }
  }

  /** The source's chain of `Array.isArray(...) && ...` tests is the table lookup
      over `list`, `data.list`, `data`. */
  lemma CandidatesFollowTable(data: Json)
    ensures Candidates(data) == FirstArray(Some(data), CandidatePaths)
  {
    var v := Some(data);
    assert GetPath(v, ["list"]) == Get(v, "list");
    assert GetPath(v, ["data", "list"]) == Get(Get(v, "data"), "list");
    assert GetPath(v, ["data"]) == Get(v, "data");
    assert CandidatePaths[1..] == [["data", "list"], ["data"]];
    assert CandidatePaths[2..] == [["data"]];
  }

  /** The source's `||` and `??` chains are the alias table: a record is dropped
      exactly when none of its name aliases is truthy; otherwise its descriptor
      takes name, size, direct URL and id from the first alias that qualifies, and
      the record is kept under that descriptor's key, or ends the response when
      the key cannot be built. */
  lemma InspectFollowsTable(item: Json)
    ensures var it := Some(item);
            var name := FirstTruthy(it, NameAliases, None);
            var size := FirstPresent(it, SizeAliases, Some(JNull));
            var url := FirstTruthy(it, UrlAliases, Some(JNull));
            var id := FirstTruthy(it, IdAliases, name);
            && (Inspect(item).Nameless? <==> !Truthy(name))
            && (Truthy(name) ==>
                 && name.Some? && size.Some? && url.Some? && id.Some?
                 && var d := FileDescriptor(id.value, name.value, size.value, url.value);
                    && (Inspect(item).Unconvertible? <==> KeyOf(d).None?)
                    && (Inspect(item).Keyed? ==> Inspect(item) == Keyed(d, KeyOf(d).value)))
  {
    var it := Some(item);
    assert NameAliases[1..] == ["name", "filename"] && NameAliases[2..] == ["filename"];
    assert SizeAliases[1..] == ["filesize"];
    assert UrlAliases[1..] == ["downloadUrl", "directUrl"] && UrlAliases[2..] == ["directUrl"];
    assert IdAliases[1..] == ["id", "file_id"] && IdAliases[2..] == ["file_id"];
  }

  // ---------------------------------------------------------------- properties of the fold

  /** Every record of `items` up to the first one whose key cannot be built either
      has no name or has its key in `seen`. */
  predicate Covered(seen: set<string>, items: seq<Json>)
    decreases |items|
  {
    items == [] ||
    match Inspect(items[0])
    case Nameless => Covered(seen, items[1..])
    case Unconvertible => true
    case Keyed(_, k) => k in seen && Covered(seen, items[1..])
  }

  lemma {:induction false} CoveredGrows(s1: set<string>, s2: set<string>, items: seq<Json>)
    requires s1 <= s2 && Covered(s1, items)
    ensures Covered(s2, items)
    decreases |items|
  {
    if items != [] && !Inspect(items[0]).Unconvertible? {
      CoveredGrows(s1, s2, items[1..]);
    }
  }

  /** After a response's records are absorbed, all of them are covered. */
  lemma {:induction false} AbsorbCovers(c: Crawl, items: seq<Json>)
    ensures Covered(Absorb(c, items).seen, items)
    decreases |items|
  {
    if items != [] {
      match Inspect(items[0]) {
        case Nameless =>
          AbsorbCovers(c, items[1..]);
        case Unconvertible =>
        case Keyed(file, key) =>
          var next := if key in c.seen then c else Crawl(c.found + [file], c.seen + {key});
          AbsorbCovers(next, items[1..]);
      }
    }
  }

  /** Covered records change nothing. */
  lemma {:induction false} AbsorbCovered(c: Crawl, items: seq<Json>)
    requires Covered(c.seen, items)
    ensures Absorb(c, items) == c
    decreases |items|
  {
    if items != [] && !Inspect(items[0]).Unconvertible? {
      AbsorbCovered(c, items[1..]);
    }
  }

  /** Feeding the extractor the same response a second time adds nothing. */
  lemma ObserveIdempotent(c: Crawl, resp: ObservedResponse)
    ensures Observe(Observe(c, resp), resp) == Observe(c, resp)
  {
    var ct := resp.contentType.GetOr("");
    if Text.Includes(ct, JsonMediaType) && resp.body.Some? && Candidates(resp.body.value).Some? {
      var items := Candidates(resp.body.value).value;
      AbsorbCovers(c, items);
      AbsorbCovered(Absorb(c, items), items);
    }
  }

  /** A response's records are all covered by `seen`, or it is not inspected. */
  predicate ResponseCovered(seen: set<string>, resp: ObservedResponse) {
    var ct := resp.contentType.GetOr("");
    Text.Includes(ct, JsonMediaType) && resp.body.Some? && Candidates(resp.body.value).Some? ==>
      Covered(seen, Candidates(resp.body.value).value)
  }

  lemma ObserveCovers(c: Crawl, resp: ObservedResponse)
    ensures ResponseCovered(Observe(c, resp).seen, resp)
  {
    var ct := resp.contentType.GetOr("");
    if Text.Includes(ct, JsonMediaType) && resp.body.Some? && Candidates(resp.body.value).Some? {
      AbsorbCovers(c, Candidates(resp.body.value).value);
    }
  }

  lemma {:induction false} ObserveAllCovers(c: Crawl, resps: seq<ObservedResponse>)
    ensures forall j :: 0 <= j < |resps| ==> ResponseCovered(ObserveAll(c, resps).seen, resps[j])
    decreases |resps|
  {
    if resps != [] {
      var next := Observe(c, resps[0]);
      var final := ObserveAll(c, resps);
      ObserveCovers(c, resps[0]);
      ObserveAllCovers(next, resps[1..]);
      var ct := resps[0].contentType.GetOr("");
      if Text.Includes(ct, JsonMediaType) && resps[0].body.Some? && Candidates(resps[0].body.value).Some? {
        CoveredGrows(next.seen, final.seen, Candidates(resps[0].body.value).value);
      }
      forall j | 1 <= j < |resps| ensures ResponseCovered(final.seen, resps[j]) {
        assert resps[j] == resps[1..][j - 1];
      }
    }
  }

  lemma {:induction false} ObserveAllCovered(c: Crawl, resps: seq<ObservedResponse>)
    requires forall j :: 0 <= j < |resps| ==> ResponseCovered(c.seen, resps[j])
    ensures ObserveAll(c, resps) == c
    decreases |resps|
  {
    if resps != [] {
      var ct := resps[0].contentType.GetOr("");
      if Text.Includes(ct, JsonMediaType) && resps[0].body.Some? && Candidates(resps[0].body.value).Some? {
        AbsorbCovered(c, Candidates(resps[0].body.value).value);
      }
      assert Observe(c, resps[0]) == c;
      forall j | 0 <= j < |resps| - 1 ensures ResponseCovered(c.seen, resps[1..][j]) {
        assert resps[1..][j] == resps[j + 1];
      }
      ObserveAllCovered(c, resps[1..]);
    }
  }

  /** A page that re-issues every call it already made (re-polling) adds nothing:
      replaying all responses after the crawl leaves its result unchanged. */
  lemma ReplayAddsNothing(resps: seq<ObservedResponse>)
    ensures ObserveAll(Extract(resps), resps) == Extract(resps)
  {
    ObserveAllCovers(Empty, resps);
    ObserveAllCovered(Extract(resps), resps);
  }

  /** A record whose key cannot be built ends its response: the records before it
      were absorbed, the ones after it are ignored. */
  lemma {:induction false} AbortKeepsEarlierRecords(c: Crawl, items: seq<Json>, j: nat)
    requires j < |items| && Inspect(items[j]).Unconvertible?
    ensures Absorb(c, items) == Absorb(c, items[..j])
    decreases j
  {
    if j == 0 {
      assert items[..0] == [];
    } else {
      assert items[..j][0] == items[0];
      assert items[..j][1..] == items[1..][..j - 1];
      match Inspect(items[0]) {
        case Nameless =>
          AbortKeepsEarlierRecords(c, items[1..], j - 1);
        case Unconvertible =>
        case Keyed(file, key) =>
          var next := if key in c.seen then c else Crawl(c.found + [file], c.seen + {key});
          AbortKeepsEarlierRecords(next, items[1..], j - 1);
      }
    }
  }

  // ---------------------------------------------------------------- what the fold keeps

  /** What the record loop makes of each record, position by position. */
  function Inspections(items: seq<Json>): (r: seq<Inspection>)
    ensures |r| == |items|
  {
    if items == [] then [] else [Inspect(items[0])] + Inspections(items[1..])
  }

  /** No record before position `j` ends the response. */
  predicate NoAbortBefore(ins: seq<Inspection>, j: nat) {
    forall i :: 0 <= i < j && i < |ins| ==> !ins[i].Unconvertible?
  }

  /** The keys of the keyed records before position `j`. */
  function KeysBefore(ins: seq<Inspection>, j: nat): set<string> {
    set i | 0 <= i < j && i < |ins| && ins[i].Keyed? :: ins[i].key
  }

  /** The record at `j` is pushed: no earlier record ended the response, it has a
      key, and that key is neither in `seen` nor the key of an earlier record. */
  predicate Kept(seen: set<string>, ins: seq<Inspection>, j: nat) {
    && j < |ins|
    && NoAbortBefore(ins, j)
    && ins[j].Keyed?
    && ins[j].key !in seen
    && ins[j].key !in KeysBefore(ins, j)
  }

  /** The descriptor the record at `j` contributes, if it is kept. */
  function KeptAt(seen: set<string>, ins: seq<Inspection>, j: nat): seq<FileDescriptor>
    requires j < |ins|
  {
    if Kept(seen, ins, j) then [ins[j].file] else []
  }

  /** The descriptors of the kept records from position `j` on, in order. */
  function KeptFrom(seen: set<string>, ins: seq<Inspection>, j: nat): seq<FileDescriptor>
    requires j <= |ins|
    decreases |ins| - j
  {
    if j == |ins| then [] else KeptAt(seen, ins, j) + KeptFrom(seen, ins, j + 1)
  }

  /** The keys of every keyed record the loop reaches before any abort. */
  function ReachedKeys(ins: seq<Inspection>): set<string> {
    set i | 0 <= i < |ins| && NoAbortBefore(ins, i) && ins[i].Keyed? :: ins[i].key
  }

  /** The key the first record adds to what the rest of the loop sees. */
  function HeadKey(ins: seq<Inspection>): set<string>
    requires ins != []
  {
    if ins[0].Keyed? then {ins[0].key} else {}
  }

  /** What the first record contributes to `found`: its descriptor when it is keyed
      under a key not yet seen, nothing otherwise. */
  function HeadKept(seen: set<string>, ins: seq<Inspection>): seq<FileDescriptor>
    requires ins != []
  {
    if ins[0].Keyed? && ins[0].key !in seen then [ins[0].file] else []
  }

  lemma NoAbortInTail(ins: seq<Inspection>, j: nat)
    requires ins != [] && !ins[0].Unconvertible?
    ensures NoAbortBefore(ins, j + 1) <==> NoAbortBefore(ins[1..], j)
  {
    var tail := ins[1..];
    if NoAbortBefore(tail, j) {
      forall i | 0 <= i < j + 1 && i < |ins| ensures !ins[i].Unconvertible? {
        if i > 0 { assert ins[i] == tail[i - 1]; }
      }
    }
    if NoAbortBefore(ins, j + 1) {
      forall i | 0 <= i < j && i < |tail| ensures !tail[i].Unconvertible? {
        assert tail[i] == ins[i + 1];
      }
    }
  }

  lemma KeysBeforeTail(ins: seq<Inspection>, j: nat)
    requires ins != []
    ensures KeysBefore(ins, j + 1) == HeadKey(ins) + KeysBefore(ins[1..], j)
  {
    var tail := ins[1..];
    forall k | k in KeysBefore(ins, j + 1) ensures k in HeadKey(ins) + KeysBefore(tail, j) {
      var i :| 0 <= i < j + 1 && i < |ins| && ins[i].Keyed? && ins[i].key == k;
      if i > 0 { assert ins[i] == tail[i - 1]; }
    }
    forall k | k in KeysBefore(tail, j) ensures k in KeysBefore(ins, j + 1) {
      var i :| 0 <= i < j && i < |tail| && tail[i].Keyed? && tail[i].key == k;
      assert tail[i] == ins[i + 1];
    }
  }

  lemma KeptInTail(seen: set<string>, ins: seq<Inspection>, j: nat)
    requires ins != [] && !ins[0].Unconvertible? && j < |ins| - 1
    ensures KeptAt(seen, ins, j + 1) == KeptAt(seen + HeadKey(ins), ins[1..], j)
  {
    NoAbortInTail(ins, j);
    KeysBeforeTail(ins, j);
    assert ins[j + 1] == ins[1..][j];
  }

  lemma {:induction false} KeptFromTail(seen: set<string>, ins: seq<Inspection>, j: nat)
    requires ins != [] && !ins[0].Unconvertible? && j < |ins|
    ensures KeptFrom(seen, ins, j + 1) == KeptFrom(seen + HeadKey(ins), ins[1..], j)
    decreases |ins| - j
  {
    if j + 1 < |ins| {
      KeptInTail(seen, ins, j);
      KeptFromTail(seen, ins, j + 1);
    }
  }

  /** Past a first record that does not end it, the loop keeps that record's
      contribution and then what the rest keeps against the grown key set. */
  lemma KeptSplit(seen: set<string>, ins: seq<Inspection>)
    requires ins != [] && !ins[0].Unconvertible?
    ensures KeptFrom(seen, ins, 0) == HeadKept(seen, ins) + KeptFrom(seen + HeadKey(ins), ins[1..], 0)
  {
    assert NoAbortBefore(ins, 0) && KeysBefore(ins, 0) == {};
    assert KeptAt(seen, ins, 0) == HeadKept(seen, ins);
    KeptFromTail(seen, ins, 0);
  }

  lemma ReachedKeysTail(ins: seq<Inspection>)
    requires ins != [] && !ins[0].Unconvertible?
    ensures ReachedKeys(ins) == HeadKey(ins) + ReachedKeys(ins[1..])
  {
    var tail := ins[1..];
    forall i | 0 <= i < |tail| ensures NoAbortBefore(ins, i + 1) <==> NoAbortBefore(tail, i) {
      NoAbortInTail(ins, i);
    }
    forall k | k in ReachedKeys(ins) ensures k in HeadKey(ins) + ReachedKeys(tail) {
      var i :| 0 <= i < |ins| && NoAbortBefore(ins, i) && ins[i].Keyed? && ins[i].key == k;
      if i > 0 { assert ins[i] == tail[i - 1]; }
    }
    forall k | k in ReachedKeys(tail) ensures k in ReachedKeys(ins) {
      var i :| 0 <= i < |tail| && NoAbortBefore(tail, i) && tail[i].Keyed? && tail[i].key == k;
      assert ins[i + 1] == tail[i];
    }
    if ins[0].Keyed? {
      assert NoAbortBefore(ins, 0);
    }
  }

  lemma {:induction false} KeptFromAfterAbort(seen: set<string>, ins: seq<Inspection>, j: nat)
    requires ins != [] && ins[0].Unconvertible? && j <= |ins|
    ensures KeptFrom(seen, ins, j) == []
    decreases |ins| - j
  {
    if j < |ins| {
      assert !Kept(seen, ins, j) by {
        if j > 0 { assert !NoAbortBefore(ins, j); }
      }
      KeptFromAfterAbort(seen, ins, j + 1);
    }
  }

  /** A record that cannot be keyed first ends the response: nothing is kept and no
      key is reached. */
  lemma AbortAtHead(seen: set<string>, ins: seq<Inspection>)
    requires ins != [] && ins[0].Unconvertible?
    ensures KeptFrom(seen, ins, 0) == [] && ReachedKeys(ins) == {}
  {
    KeptFromAfterAbort(seen, ins, 0);
  }

  /** The state after the loop's first record, when that record does not end it. */
  function AfterHead(c: Crawl, ins: seq<Inspection>): Crawl
    requires ins != []
  {
    Crawl(c.found + HeadKept(c.seen, ins), c.seen + HeadKey(ins))
  }

  lemma InspectionsHead(items: seq<Json>)
    requires items != []
    ensures Inspections(items)[0] == Inspect(items[0])
    ensures Inspections(items)[1..] == Inspections(items[1..])
  {
  }

  lemma AbsorbHead(c: Crawl, items: seq<Json>)
    requires items != [] && !Inspect(items[0]).Unconvertible?
    ensures Absorb(c, items) == Absorb(AfterHead(c, Inspections(items)), items[1..])
  {
    InspectionsHead(items);
    var ins := Inspections(items);
    if Inspect(items[0]).Nameless? {
      assert AfterHead(c, ins) == Crawl(c.found + [], c.seen + {}) == c;
    } else if Inspect(items[0]).key in c.seen {
      assert AfterHead(c, ins) == Crawl(c.found + [], c.seen + {Inspect(items[0]).key}) == c;
    }
  }

  lemma AbsorbAbort(c: Crawl, items: seq<Json>)
    requires items != [] && Inspect(items[0]).Unconvertible?
    ensures Absorb(c, items) == c
  {
  }

  /** The record loop adds exactly the keys it reaches to `seen`. */
  lemma {:induction false} AbsorbReaches(c: Crawl, items: seq<Json>)
    ensures Absorb(c, items).seen == c.seen + ReachedKeys(Inspections(items))
    decreases |items|
  {
    var ins := Inspections(items);
    if items == [] {
      assert ReachedKeys(ins) == {};
    } else {
      InspectionsHead(items);
      if Inspect(items[0]).Unconvertible? {
        AbortAtHead(c.seen, ins);
        AbsorbAbort(c, items);
      } else {
        ReachedKeysTail(ins);
        AbsorbHead(c, items);
        AbsorbReaches(AfterHead(c, ins), items[1..]);
      }
    }
  }

  /** The record loop appends exactly the kept records' descriptors, in order: of
      two records with one key, the first is pushed and the second skipped. */
  lemma {:induction false} AbsorbKeeps(c: Crawl, items: seq<Json>)
    ensures Absorb(c, items).found == c.found + KeptFrom(c.seen, Inspections(items), 0)
    decreases |items|
  {
    var ins := Inspections(items);
    if items == [] {
      assert Absorb(c, items) == c;
    } else {
      InspectionsHead(items);
      if Inspect(items[0]).Unconvertible? {
        AbortAtHead(c.seen, ins);
        AbsorbAbort(c, items);
      } else {
        var next := AfterHead(c, ins);
        AbsorbHead(c, items);
        AbsorbKeeps(next, items[1..]);
        KeptSplit(c.seen, ins);
        assert c.found + HeadKept(c.seen, ins) + KeptFrom(next.seen, ins[1..], 0)
            == c.found + (HeadKept(c.seen, ins) + KeptFrom(next.seen, ins[1..], 0));
      }
    }
  }

  /** The records a response puts before the callback: its candidate array when its
      content type mentions JSON and its body parsed, none otherwise. */
  function Offered(resp: ObservedResponse): seq<Json> {
    if !Text.Includes(resp.contentType.GetOr(""), JsonMediaType) || resp.body.None? then []
    else Candidates(resp.body.value).GetOr([])
  }

  lemma ObserveAbsorbsOffered(c: Crawl, resp: ObservedResponse)
    ensures Observe(c, resp) == Absorb(c, Offered(resp))
  {
  }

  /** One callback appends exactly the kept records of its response. */
  lemma ObserveKeeps(c: Crawl, resp: ObservedResponse)
    ensures Observe(c, resp).found == c.found + KeptFrom(c.seen, Inspections(Offered(resp)), 0)
    ensures Observe(c, resp).seen == c.seen + ReachedKeys(Inspections(Offered(resp)))
  {
    ObserveAbsorbsOffered(c, resp);
    AbsorbKeeps(c, Offered(resp));
    AbsorbReaches(c, Offered(resp));
  }

  /** The kept records of a sequence of responses: each response's records are
      checked against the keys of everything reached before it. */
  function KeptAcross(seen: set<string>, resps: seq<ObservedResponse>): seq<FileDescriptor>
    decreases |resps|
  {
    if resps == [] then []
    else
      var ins := Inspections(Offered(resps[0]));
      KeptFrom(seen, ins, 0) + KeptAcross(seen + ReachedKeys(ins), resps[1..])
  }

  /** A crawl appends exactly the kept records of its responses, in arrival order. */
  lemma {:induction false} ObserveAllKeeps(c: Crawl, resps: seq<ObservedResponse>)
    ensures ObserveAll(c, resps).found == c.found + KeptAcross(c.seen, resps)
    decreases |resps|
  {
    if resps != [] {
      var next := Observe(c, resps[0]);
      var ins := Inspections(Offered(resps[0]));
      calc {
        ObserveAll(c, resps).found;
      == { ObserveAllHead(c, resps); }
        ObserveAll(next, resps[1..]).found;
      == { ObserveAllKeeps(next, resps[1..]); }
        next.found + KeptAcross(next.seen, resps[1..]);
      == { ObserveKeeps(c, resps[0]); }
        (c.found + KeptFrom(c.seen, ins, 0)) + KeptAcross(c.seen + ReachedKeys(ins), resps[1..]);
      ==
        c.found + (KeptFrom(c.seen, ins, 0) + KeptAcross(c.seen + ReachedKeys(ins), resps[1..]));
      == { KeptAcrossHead(c.seen, resps); }
        c.found + KeptAcross(c.seen, resps);
      }
    }
  }

  lemma ObserveAllHead(c: Crawl, resps: seq<ObservedResponse>)
    requires resps != []
    ensures ObserveAll(c, resps) == ObserveAll(Observe(c, resps[0]), resps[1..])
  {
  }

  lemma KeptAcrossHead(seen: set<string>, resps: seq<ObservedResponse>)
    requires resps != []
    ensures var ins := Inspections(Offered(resps[0]));
            KeptAcross(seen, resps) == KeptFrom(seen, ins, 0) + KeptAcross(seen + ReachedKeys(ins), resps[1..])
  {
  }

  /** The files `listFolderFiles` returns, before the cap, are exactly the kept
      records of the responses the page produced, in arrival order. */
  lemma ExtractKeeps(resps: seq<ObservedResponse>)
    ensures Extract(resps).found == KeptAcross({}, resps)
  {
    ObserveAllKeeps(Empty, resps);
  }

  /** Handling responses in two batches is handling them all in order. */
  lemma {:induction false} ObserveAllSplit(c: Crawl, resps: seq<ObservedResponse>, k: nat)
    requires k <= |resps|
    ensures ObserveAll(c, resps) == ObserveAll(ObserveAll(c, resps[..k]), resps[k..])
    decreases k
  {
    if k == 0 {
      assert resps[..0] == [] && resps[0..] == resps;
    } else {
      assert resps[..k][0] == resps[0];
      assert resps[..k][1..] == resps[1..][..k - 1];
      assert resps[k..] == resps[1..][k - 1..];
      ObserveAllSplit(Observe(c, resps[0]), resps[1..], k - 1);
    }
  }

  /** Entries are only ever appended: what the first `k` responses produced is a
      prefix of the final list, so first-seen order is kept. */
  lemma ExtractGrowsByAppending(resps: seq<ObservedResponse>, k: nat)
    requires k <= |resps|
    ensures var early := Extract(resps[..k]).found;
            var final := Extract(resps).found;
            |early| <= |final| && final[..|early|] == early
  {
    ObserveAllSplit(Empty, resps, k);
  }

  /** The listing a crawl returns: at most 200 well-formed descriptors with pairwise
      distinct keys, the first ones found, in the order they were found. */
  lemma ListingIsDeduplicatedPrefix(resps: seq<ObservedResponse>)
    ensures var all := Extract(resps).found;
            var files := Cap(all);
            && |files| == (if |all| < MaxFiles then |all| else MaxFiles)
            && files == all[..|files|]
            && (forall i :: 0 <= i < |files| ==> WellFormed(files[i]))
            && (forall i, j :: 0 <= i < j < |files| ==> KeyOf(files[i]) != KeyOf(files[j]))
  {
    assert Consistent(Empty);
  }

  /** Only a JSON-typed response with a parsed body that offers a record array can
      change the crawl state. */
  lemma OnlyJsonArraysContribute(c: Crawl, resp: ObservedResponse)
    requires Observe(c, resp) != c
    ensures Text.Includes(resp.contentType.GetOr(""), JsonMediaType)
    ensures resp.body.Some? && Candidates(resp.body.value).Some?
  {
  }

  /** The dedup key is text: a record whose id is the number 7 and a record whose id
      is the string "7", with the same name, are one file to the extractor, and
      only the first is kept. */
  lemma NumericAndTextIdsCollide(name: string)
    requires name != ""
    ensures var a := JObj(map["fs_id" := JNum(7), "name" := JStr(name)]);
            var b := JObj(map["fs_id" := JStr("7"), "name" := JStr(name)]);
            Absorb(Empty, [a, b]).found == [FileDescriptor(JNum(7), JStr(name), JNull, JNull)]
  {
    var a := JObj(map["fs_id" := JNum(7), "name" := JStr(name)]);
    var b := JObj(map["fs_id" := JStr("7"), "name" := JStr(name)]);
    assert Text.IntToDecimal(7) == "7";
    var key := "7:" + name;
    assert Inspect(a) == Keyed(FileDescriptor(JNum(7), JStr(name), JNull, JNull), key);
    assert Inspect(b) == Keyed(FileDescriptor(JStr("7"), JStr(name), JNull, JNull), key);
    var after := Crawl([FileDescriptor(JNum(7), JStr(name), JNull, JNull)], {key});
    assert [a, b][1..] == [b] && [b][1..] == [];
    assert Empty.found + [FileDescriptor(JNum(7), JStr(name), JNull, JNull)] == after.found;
    assert Empty.seen + {key} == after.seen && key !in Empty.seen;
    assert [a, b][0] == a;
    assert Absorb(Empty, [a, b]) == Absorb(after, [b]);
    assert Absorb(after, [b]) == Absorb(after, []);
  }

  /** A JSON response whose `list` holds one keyed record adds that record's
      descriptor, unless its key was seen before. */
  lemma ObserveOneRecord(c: Crawl, rec: Json, d: FileDescriptor, key: string)
    requires Inspect(rec) == Keyed(d, key)
    ensures Observe(c, ObservedResponse(Some(JsonMediaType), Some(JObj(map["list" := JArr([rec])]))))
         == if key in c.seen then c else Crawl(c.found + [d], c.seen + {key})
  {
    var body := JObj(map["list" := JArr([rec])]);
    var resp := ObservedResponse(Some(JsonMediaType), Some(body));
    assert Text.Includes(resp.contentType.GetOr(""), JsonMediaType) by {
      assert Text.OccursAt(JsonMediaType, JsonMediaType, 0);
    }
    assert Candidates(body) == Some([rec]);
    assert Observe(c, resp) == Absorb(c, [rec]);
    assert [rec][0] == rec && [rec][1..] == [];
    if key !in c.seen {
      assert Absorb(c, [rec]) == Absorb(Crawl(c.found + [d], c.seen + {key}), []);
    } else {
      assert Absorb(c, [rec]) == Absorb(c, []);
    }
  }

  /** A record `{ name, dlink }` is keyed on its name twice over (the id falls back
      to the name) and keeps its direct URL. */
  lemma InspectNamedWithUrl(name: string, url: string)
    requires name != "" && url != ""
    ensures Inspect(JObj(map["name" := JStr(name), "dlink" := JStr(url)]))
         == Keyed(FileDescriptor(JStr(name), JStr(name), JNull, JStr(url)), name + ":" + name)
  {
  }

  /** A record `{ name }` alone is keyed the same way, with no direct URL. */
  lemma InspectNamedOnly(name: string)
    requires name != ""
    ensures Inspect(JObj(map["name" := JStr(name)]))
         == Keyed(FileDescriptor(JStr(name), JStr(name), JNull, JNull), name + ":" + name)
  {
  }

  /** Two responses are handled one after the other. */
  lemma ExtractPair(r1: ObservedResponse, r2: ObservedResponse)
    ensures Extract([r1, r2]) == Observe(Observe(Empty, r1), r2)
  {
    var after := Observe(Empty, r1);
    assert [r1, r2][0] == r1 && [r1, r2][1..] == [r2];
    assert ObserveAll(Empty, [r1, r2]) == ObserveAll(after, [r2]);
    assert [r2][0] == r2 && [r2][1..] == [];
    assert ObserveAll(after, [r2]) == ObserveAll(Observe(after, r2), []);
  }

  /** The result depends on the order in which bodies arrive: when two responses
      carry the same file, only the first one's fields are kept, so a direct URL
      seen second is lost. */
  lemma ArrivalOrderMatters()
    ensures var withUrl := JObj(map["name" := JStr("a"), "dlink" := JStr("u")]);
            var withoutUrl := JObj(map["name" := JStr("a")]);
            var r1 := ObservedResponse(Some(JsonMediaType), Some(JObj(map["list" := JArr([withUrl])])));
            var r2 := ObservedResponse(Some(JsonMediaType), Some(JObj(map["list" := JArr([withoutUrl])])));
            && Extract([r1, r2]).found == [FileDescriptor(JStr("a"), JStr("a"), JNull, JStr("u"))]
            && Extract([r2, r1]).found == [FileDescriptor(JStr("a"), JStr("a"), JNull, JNull)]
  {
    var withUrl := JObj(map["name" := JStr("a"), "dlink" := JStr("u")]);
    var withoutUrl := JObj(map["name" := JStr("a")]);
    var r1 := ObservedResponse(Some(JsonMediaType), Some(JObj(map["list" := JArr([withUrl])])));
    var r2 := ObservedResponse(Some(JsonMediaType), Some(JObj(map["list" := JArr([withoutUrl])])));
    var d1 := FileDescriptor(JStr("a"), JStr("a"), JNull, JStr("u"));
    var d2 := FileDescriptor(JStr("a"), JStr("a"), JNull, JNull);
    var key := "a" + ":" + "a";
    InspectNamedWithUrl("a", "u");
    InspectNamedOnly("a");
    ObserveOneRecord(Empty, withUrl, d1, key);
    ObserveOneRecord(Empty, withoutUrl, d2, key);
    var after1 := Crawl([] + [d1], {} + {key});
    var after2 := Crawl([] + [d2], {} + {key});
    ObserveOneRecord(after1, withoutUrl, d2, key);
    ObserveOneRecord(after2, withUrl, d1, key);
    ExtractPair(r1, r2);
    ExtractPair(r2, r1);
    assert [] + [d1] == [d1] && [] + [d2] == [d2];
  }

  // ---------------------------------------------------------------- the imperative crawler

  /** The mutable state of one crawl: the `foundFiles` array and the `seen` set the
      response callback updates. */
  class FileCollector {
    var foundFiles: seq<FileDescriptor>
    var seen: set<string>

    function State(): Crawl
      reads this
    {
      Crawl(foundFiles, seen)
    }

    ghost predicate Valid()
      reads this
    {
      Consistent(State())
    }

    constructor ()
      ensures Valid() && State() == Empty
    {
      foundFiles := [];
      seen := {};
    }

    /** The `page.on("response")` callback. */
    method OnResponse(resp: ObservedResponse)
      requires Valid()
      modifies this
      ensures Valid()
      ensures State() == Observe(old(State()), resp)
    {
      var ct := resp.contentType.GetOr("");
      if !Text.Includes(ct, JsonMediaType) {
        return;
      }
      if resp.body.None? {
        return;
      }
      var candidates := Candidates(resp.body.value);
      if candidates.None? {
        return;
      }
      var items := candidates.value;
      var i := 0;
      while i < |items|
        invariant 0 <= i <= |items|
        invariant Valid()
        invariant Absorb(old(State()), items) == Absorb(State(), items[i..])
      {
        assert items[i..][1..] == items[i + 1..];
        var inspection := Inspect(items[i]);
        match inspection {
          case Nameless =>
          case Unconvertible =>
            return;
          case Keyed(file, key) =>
            if key !in seen {
              AddKeepsConsistent(State(), file, key);
              seen := seen + {key};
              foundFiles := foundFiles + [file];
            }
        }
        i := i + 1;
      }
    }
  }

  /** `listFolderFiles`: the cookies installed in the browser context, and the
      capped list of descriptors extracted from the responses the page produced, in
      the order their bodies arrived. */
  method ListFolderFiles(hostname: Option<string>, cookieStr: string, responses: seq<ObservedResponse>)
    returns (cookies: seq<Cookies.Cookie>, files: seq<FileDescriptor>)
    ensures cookies == Cookies.ContextCookies(cookieStr, hostname)
    ensures files == Cap(Extract(responses).found)
    ensures |files| == if |Extract(responses).found| < MaxFiles then |Extract(responses).found| else MaxFiles
  {
    cookies := Cookies.ContextCookies(cookieStr, hostname);
    var collector := new FileCollector();
    var i := 0;
    while i < |responses|
      invariant 0 <= i <= |responses|
      invariant collector.Valid()
      invariant Extract(responses) == ObserveAll(collector.State(), responses[i..])
    {
      assert responses[i..][1..] == responses[i + 1..];
      collector.OnResponse(responses[i]);
      i := i + 1;
    }
    files := Cap(collector.foundFiles);
  }
}

=== FILE: http.dfy ===
/** What the model keeps of an upstream HTTP response: its status and its headers,
    keyed by lower-case name (so a lookup is case-insensitive, as `Headers.get` is). */
module Http {
  import opened Wrappers

  datatype Response = Response(status: int, headers: map<string, string>)

  /** `headers.get(name)`: `None` is `null`. */
  function HeaderValue(headers: map<string, string>, name: string): Option<string> {
    if name in headers then Some(headers[name]) else None
  }

  /** A header value JavaScript treats as truthy: present and non-empty. */
  predicate Given(v: Option<string>) {
    v.Some? && v.value != ""
  }

  /** `response.ok`: a status in the range 200-299. */
  predicate IsOk(status: int) {
    200 <= status <= 299
  }
}

=== FILE: json.dfy ===
/** The already-parsed JSON bodies the crawler inspects, seen the way JavaScript
    code sees them: optional chaining (`v?.key`), truthiness, `||`, `??`, and the
    conversion to string a template literal performs. */
module JsonValue {
  import opened Wrappers
  import Text

  /** A value produced by `JSON.parse`. Numbers are integers here. */
  datatype Json =
    | JNull
    | JBool(b: bool)
    | JNum(n: int)
    | JStr(s: string)
    | JArr(elems: seq<Json>)
    | JObj(fields: map<string, Json>)

  /** A JavaScript value read out of parsed JSON: `None` is `undefined`. */
  type JsValue = Option<Json>

  /** JavaScript truthiness: `undefined`, `null`, `false`, `0` and `""` are falsy;
      arrays and objects (even empty ones) are truthy. */
  predicate Truthy(v: JsValue) {
    match v
    case None => false
    case Some(JNull) => false
    case Some(JBool(b)) => b
    case Some(JNum(n)) => n != 0
    case Some(JStr(s)) => s != ""
    case Some(JArr(_)) => true
    case Some(JObj(_)) => true
  }

  /** `null` or `undefined`: the values `??` falls through on. */
  predicate IsNullish(v: JsValue) {
    v.None? || v.value.JNull?
  }

  /** `v?.key`: an own field of an object; `undefined` for every other value
      (none of the keys the crawler reads is an inherited property). */
  function Get(v: JsValue, key: string): (r: JsValue)
    ensures r.Some? <==> v.Some? && v.value.JObj? && key in v.value.fields
  {
    if v.Some? && v.value.JObj? && key in v.value.fields then Some(v.value.fields[key]) else None
  }

  /** `Array.isArray(v)`. */
  predicate IsArray(v: JsValue) {
    v.Some? && v.value.JArr?
  }

  /** `a || b`. */
  function Or(a: JsValue, b: JsValue): JsValue {
    if Truthy(a) then a else b
  }

  /** `a ?? b`. */
  function Coalesce(a: JsValue, b: JsValue): JsValue {
    if IsNullish(a) then b else a
  }

  /** `${v}`: the string a template literal makes of a JSON value, or `None` when
      JavaScript throws `TypeError`. An object converts through its `toString`; a
      parsed object whose own field is named `toString` hides the inherited method
      with a value that cannot be called, and so does not convert at all. Arrays
      convert through `join(",")`, writing `null` elements as empty text. */
  function ToJsString(v: Json): (r: Option<string>)
    ensures r.None? ==> v.JObj? || v.JArr?
    ensures v.JObj? ==> (r.None? <==> "toString" in v.fields)
    decreases v, 1
  {
    match v
    case JNull => Some("null")
    case JBool(b) => Some(if b then "true" else "false")
    case JNum(n) => Some(Text.IntToDecimal(n))
    case JStr(s) => Some(s)
    case JObj(fields) => if "toString" in fields then None else Some("[object Object]")
    case JArr(elems) => JoinFrom(v, 0)
  }

  /** The elements of array `v` from index `i` on, converted and joined with `,`. */
  function JoinFrom(v: Json, i: nat): Option<string>
    requires v.JArr? && i <= |v.elems|
    decreases v, 0, |v.elems| - i
  {
    if i == |v.elems| then Some("")
    else
      var e := v.elems[i];
      var head := if e.JNull? then Some("") else ToJsString(e);
      var tail := JoinFrom(v, i + 1);
      if head.None? || tail.None? then None
      else if i + 1 == |v.elems| then head
      else Some(head.value + "," + tail.value)
  }

  /** Distinct numbers convert to distinct text. */
  lemma NumberTextInjective(m: int, n: int)
    requires ToJsString(JNum(m)) == ToJsString(JNum(n))
    ensures m == n
  {
    Text.IntToDecimalInjective(m, n);
  }

  /** A one-element array converts like its element. */
  lemma SingletonArrayConvertsLikeElement(e: Json)
    requires !e.JNull?
    ensures ToJsString(JArr([e])) == ToJsString(e)
  {
    assert JoinFrom(JArr([e]), 1) == Some("");
  }

  /** An array fails to convert exactly when one of its non-null elements does. */
  lemma ArrayConversionThrows(v: Json)
    requires v.JArr?
    ensures ToJsString(v).None? <==>
            exists j :: 0 <= j < |v.elems| && !v.elems[j].JNull? && ToJsString(v.elems[j]).None?
  {
    JoinFromThrows(v, 0);
  }

  lemma {:induction false} JoinFromThrows(v: Json, i: nat)
    requires v.JArr? && i <= |v.elems|
    ensures JoinFrom(v, i).None? <==>
            exists j :: i <= j < |v.elems| && !v.elems[j].JNull? && ToJsString(v.elems[j]).None?
    decreases |v.elems| - i
  {
    if i < |v.elems| {
      JoinFromThrows(v, i + 1);
      var e := v.elems[i];
      if !e.JNull? && ToJsString(e).None? {
        assert JoinFrom(v, i).None?;
      } else if JoinFrom(v, i + 1).Some? {
        assert JoinFrom(v, i).Some?;
        forall j | i <= j < |v.elems| ensures !(!v.elems[j].JNull? && ToJsString(v.elems[j]).None?) {
          if j > i {
            assert !(i + 1 <= j < |v.elems| && !v.elems[j].JNull? && ToJsString(v.elems[j]).None?);
          }
        }
      }
    }
  }
}

=== FILE: metadata.dfy ===
/** The metadata probe run on a resolved direct URL: which requests it issues, and
    how MIME type, size and file name are read from the response headers. */
module Metadata {
  import opened Wrappers
  import opened Text
  import opened Uri
  import opened Http

  // ---------------------------------------------------------------- Content-Disposition

  /** An input character against a lower-case pattern character, compared as a
      case-insensitive (non-Unicode) regular expression compares them: only the
      ASCII letters of the pattern have a second case. */
  predicate SameIgnoringCase(c: char, p: char) {
    c == p || ('a' <= p <= 'z' && c as int == p as int - 32)
  }

  /** The pattern text `pat` matches `s` at position `i`, ignoring case. */
  predicate MatchesAt(s: string, i: nat, pat: string) {
    i + |pat| <= |s| && forall k :: 0 <= k < |pat| ==> SameIgnoringCase(s[i + k], pat[k])
  }

  /** What `[^";]+` can capture: a non-empty text free of `"` and `;`. */
  predicate IsToken(t: string) {
    t != [] && '"' !in t && ';' !in t
  }

  /** The end of the longest run of characters other than `"` and `;` from `q`. */
  function RunEnd(s: string, q: nat): (e: nat)
    requires q <= |s|
    ensures q <= e <= |s|
    ensures forall k :: q <= k < e ==> s[k] != '"' && s[k] != ';'
    ensures e < |s| ==> s[e] == '"' || s[e] == ';'
    decreases |s| - q
  {
    if q < |s| && s[q] != '"' && s[q] != ';' then RunEnd(s, q + 1) else q
  }

  /** `("?)([^";]+)\1` at `q`, with its backtracking worked out: after an opening
      quote the greedy run must be closed by a quote (no shorter run can be, and
      dropping the quote leaves a run that cannot start on it); without one, any
      non-empty run matches. The result is the second group. */
  function ValueAt(s: string, q: nat): (v: Option<string>)
    requires q <= |s|
    ensures v.Some? ==> IsToken(v.value)
  {
    if q < |s| && s[q] == '"' then
      var e := RunEnd(s, q + 1);
      if q + 1 < e < |s| && s[e] == '"' then Some(s[q + 1..e]) else None
    else
      var e := RunEnd(s, q);
      if q < e then Some(s[q..e]) else None
  }

  const Param := "filename"
  const UtfMarker := "utf-8''"

  /** The whole pattern `filename\*?=(?:UTF-8'')?("?)([^";]+)\1` anchored at `p`;
      the optional `UTF-8''` is tried first and dropped when the rest then fails. */
  function MatchAt(s: string, p: nat): (v: Option<string>)
    requires p <= |s|
    ensures v.Some? ==> IsToken(v.value) && MatchesAt(s, p, Param)
  {
    if !MatchesAt(s, p, Param) then None
    else
      var q := p + 8;
      var q := if q < |s| && s[q] == '*' then q + 1 else q;
      if !(q < |s| && s[q] == '=') then None
      else if MatchesAt(s, q + 1, UtfMarker) && ValueAt(s, q + 8).Some? then ValueAt(s, q + 8)
      else ValueAt(s, q + 1)
  }

  /** `exec` from position `p`: the leftmost position where the pattern matches. */
  function FirstMatch(s: string, p: nat): (v: Option<string>)
    requires p <= |s|
    ensures v.Some? ==> IsToken(v.value)
    ensures v.None? ==> forall k: nat :: p <= k <= |s| ==> MatchAt(s, k).None?
    decreases |s| - p
  {
    match MatchAt(s, p)
    case Some(t) => Some(t)
    case None => if p == |s| then None else FirstMatch(s, p + 1)
  }

  /** With no matching position from `p` on, `exec` finds nothing. */
  lemma {:induction false} FirstMatchNone(s: string, p: nat)
    requires p <= |s|
    requires forall k: nat :: p <= k <= |s| ==> MatchAt(s, k).None?
    ensures FirstMatch(s, p) == None
    decreases |s| - p
  {
    if p < |s| {
      FirstMatchNone(s, p + 1);
    }
  }

  /** The match `exec` reports is the one at the leftmost matching position. */
  lemma FirstMatchIsLeftmost(s: string, p: nat, k: nat)
    requires p <= k <= |s| && MatchAt(s, k).Some?
    requires forall j: nat :: p <= j < k ==> MatchAt(s, j).None?
    ensures FirstMatch(s, p) == MatchAt(s, k)
  {
    NoMatchBetweenHolds(s, p, k);
    SkipNoMatch(s, p, k);
    FirstMatchHere(s, k);
  }

  /** No position from `p` up to, but not including, `k` matches. */
  predicate NoMatchBetween(s: string, p: nat, k: nat)
    requires p <= k <= |s|
    decreases k - p
  {
    p == k || (MatchAt(s, p).None? && NoMatchBetween(s, p + 1, k))
  }

  lemma {:induction false} NoMatchBetweenHolds(s: string, p: nat, k: nat)
    requires p <= k <= |s|
    requires forall j: nat :: p <= j < k ==> MatchAt(s, j).None?
    ensures NoMatchBetween(s, p, k)
    decreases k - p
  {
    if p < k {
      NoMatchBetweenHolds(s, p + 1, k);
    }
  }

  /** Across positions that do not match, `exec` moves on unchanged. */
  lemma {:induction false} SkipNoMatch(s: string, p: nat, k: nat)
    requires p <= k <= |s| && NoMatchBetween(s, p, k)
    ensures FirstMatch(s, p) == FirstMatch(s, k)
    decreases k - p
  {
    if p < k {
      SkipNoMatch(s, p + 1, k);
      FirstMatchStep(s, p);
    }
  }

  lemma FirstMatchStep(s: string, p: nat)
    requires p < |s| && MatchAt(s, p).None?
    ensures FirstMatch(s, p) == FirstMatch(s, p + 1)
  {
  }

  lemma FirstMatchHere(s: string, p: nat)
    requires p <= |s| && MatchAt(s, p).Some?
    ensures FirstMatch(s, p) == MatchAt(s, p)
  {
  }

  /** `filenameFromDisposition`: `None` is `null`. The captured token is
      percent-decoded, and kept as it is when it does not decode. */
  function FilenameFromDisposition(cd: Option<string>): (name: Option<string>)
    ensures name.Some? ==> name.value != ""
    ensures name.Some? ==> Given(cd)
  {
    if !Given(cd) then None
    else match FirstMatch(cd.value, 0)
      case None => None
      case Some(token) =>
        match DecodeComponent(token)
        case Some(decoded) => Some(decoded)
        case None => Some(token)
  }

  /** Positions where `filename` does not start do not change the first match. */
  lemma {:induction false} FirstMatchSkips(s: string, p: nat, q: nat)
    requires p <= q <= |s|
    requires forall k :: p <= k < q ==> !MatchesAt(s, k, Param)
    ensures FirstMatch(s, p) == FirstMatch(s, q)
    decreases q - p
  {
    if p < q {
      assert !MatchesAt(s, p, Param);
      FirstMatchStep(s, p);
      FirstMatchSkips(s, p + 1, q);
    }
  }

  /** A header in which `filename` occurs nowhere (in any case) yields no name. */
  lemma NoParameterNoFilename(cd: string)
    requires forall k :: 0 <= k <= |cd| ==> !MatchesAt(cd, k, Param)
    ensures FilenameFromDisposition(Some(cd)) == None
  {
    FirstMatchSkips(cd, 0, |cd|);
  }

  /** `filename="` whose quote is never closed matches nowhere, so when it is the
      only place `filename` occurs, there is no match at all. */
  lemma UnclosedQuoteNoMatch(s: string, p: nat)
    requires p + 10 <= |s| && s[p..p + 10] == QuotedParam
    requires forall k :: p + 10 <= k < |s| ==> s[k] != '"'
    requires forall k :: 0 <= k <= |s| && k != p ==> !MatchesAt(s, k, Param)
    ensures FirstMatch(s, 0) == None
  {
    UnclosedQuoteFailsAt(s, p);
    forall k: nat | k <= |s| ensures MatchAt(s, k).None? {
    }
    FirstMatchNone(s, 0);
  }

  /** At the unclosed `filename="` itself, the pattern fails. */
  lemma UnclosedQuoteFailsAt(s: string, p: nat)
    requires p + 10 <= |s| && s[p..p + 10] == QuotedParam
    requires forall k :: p + 10 <= k < |s| ==> s[k] != '"'
    ensures MatchAt(s, p).None?
  {
    QuotedHeaderAt(s, p);
    assert !MatchesAt(s, p + 9, UtfMarker) by {
      assert !SameIgnoringCase(s[p + 9 + 0], UtfMarker[0]);
    }
    assert RunEnd(s, p + 10) == |s| || s[RunEnd(s, p + 10)] == ';';
  }

  /** The pieces of `filename="` the pattern looks at. */
  lemma QuotedHeaderAt(s: string, p: nat)
    requires p + 10 <= |s| && s[p..p + 10] == QuotedParam
    ensures MatchesAt(s, p, Param) && s[p + 8] == '=' && s[p + 9] == '"'
  {
    LiteralMatches(s, p, Param, "=\"");
    assert s[p + 8] == s[p..p + 10][8] && s[p + 9] == s[p..p + 10][9];
  }

  /** A header whose quoted filename is never closed, with no other `filename` in
      it, yields no name. */
  lemma UnclosedQuoteGivesNoName(pre: string, v: string)
    requires '"' !in v
    requires var s := pre + QuotedParam + v;
             forall k :: 0 <= k <= |s| && k != |pre| ==> !MatchesAt(s, k, Param)
    ensures FilenameFromDisposition(Some(pre + QuotedParam + v)) == None
  {
    var s := pre + QuotedParam + v;
    assert s[|pre|..|pre| + 10] == QuotedParam;
    forall k | |pre| + 10 <= k < |s| ensures s[k] != '"' {
      assert s[k] == v[k - |pre| - 10];
    }
    UnclosedQuoteNoMatch(s, |pre|);
  }

  /** Text without an `f` or `F` cannot hold the start of a match. */
  lemma SkipText(s: string, p: nat)
    requires p <= |s|
    requires forall k :: 0 <= k < p ==> !SameIgnoringCase(s[k], 'f')
    ensures FirstMatch(s, 0) == FirstMatch(s, p)
  {
    forall k | 0 <= k < p ensures !MatchesAt(s, k, Param) {
      assert Param[0] == 'f';
      if k + |Param| <= |s| {
        assert !SameIgnoringCase(s[k + 0], Param[0]);
      }
    }
    FirstMatchSkips(s, 0, p);
  }

  /** A value token running to the end of the header is captured whole. */
  lemma TokenToEnd(s: string, q: nat)
    requires q < |s| && s[q] != '"'
    requires forall k :: q <= k < |s| ==> s[k] != '"' && s[k] != ';'
    ensures ValueAt(s, q) == Some(s[q..])
  {
    assert RunEnd(s, q) == |s|;
    assert s[q..|s|] == s[q..];
  }

  /** Literal text in `s` at `p` matches itself. */
  lemma LiteralMatches(s: string, p: nat, lit: string, rest: string)
    requires p + |lit| + |rest| <= |s| && s[p..p + |lit| + |rest|] == lit + rest
    ensures MatchesAt(s, p, lit)
  {
    forall k | 0 <= k < |lit| ensures s[p + k] == lit[k] {
      assert s[p..p + |lit| + |rest|][k] == s[p + k];
      assert (lit + rest)[k] == lit[k];
    }
  }

  /** The upper-case marker matches the pattern's `UTF-8''`. */
  lemma UpperMarkerMatches(s: string, p: nat)
    requires p + 7 <= |s| && s[p..p + 7] == "UTF-8''"
    ensures MatchesAt(s, p, UtfMarker)
  {
    forall k | 0 <= k < 7 ensures s[p + k] == "UTF-8''"[k] {
      assert s[p..p + 7][k] == s[p + k];
    }
  }

  /** The pattern at `p` in its extended form, its token ending the header. */
  lemma ExtendedMatchAt(s: string, p: nat)
    requires p + 18 <= |s| && MatchesAt(s, p, Param) && s[p + 8] == '*' && s[p + 9] == '='
    requires MatchesAt(s, p + 10, UtfMarker) && s[p + 17] != '"'
    requires forall k :: p + 17 <= k < |s| ==> s[k] != '"' && s[k] != ';'
    ensures MatchAt(s, p) == Some(s[p + 17..])
  {
    TokenToEnd(s, p + 17);
  }

  /** The pattern at `p` in its quoted form. */
  lemma QuotedMatchAt(s: string, p: nat, e: nat)
    requires p + 10 < e < |s| && MatchesAt(s, p, Param) && s[p + 8] == '=' && s[p + 9] == '"'
    requires forall k :: p + 10 <= k < e ==> s[k] != '"' && s[k] != ';'
    requires s[e] == '"'
    ensures MatchAt(s, p) == Some(s[p + 10..e])
  {
    assert !MatchesAt(s, p + 9, UtfMarker) by {
      assert !SameIgnoringCase(s[p + 9 + 0], UtfMarker[0]);
    }
    assert RunEnd(s, p + 10) == e;
  }

  const ExtendedParam := Param + "*=UTF-8''"

  /** `filename*=UTF-8''` followed by a token that ends the header captures the
      token, when nothing before it has an `f`. */
  lemma ExtendedCaptures(s: string, p: nat)
    requires p + 17 < |s| && s[p..p + 17] == ExtendedParam && IsToken(s[p + 17..])
    requires forall k :: 0 <= k < p ==> !SameIgnoringCase(s[k], 'f')
    ensures FirstMatch(s, 0) == Some(s[p + 17..])
  {
    SkipText(s, p);
    ExtendedHeaderAt(s, p);
    TokenRunsToEnd(s, p + 17);
    ExtendedMatchAt(s, p);
  }

  /** The pieces of `filename*=UTF-8''` the pattern looks at. */
  lemma ExtendedHeaderAt(s: string, p: nat)
    requires p + 17 <= |s| && s[p..p + 17] == ExtendedParam
    ensures MatchesAt(s, p, Param) && s[p + 8] == '*' && s[p + 9] == '='
    ensures MatchesAt(s, p + 10, UtfMarker)
  {
    LiteralMatches(s, p, Param, "*=UTF-8''");
    assert s[p + 8] == '*' && s[p + 9] == '=' by {
      assert s[p..p + 17][8] == s[p + 8] && s[p..p + 17][9] == s[p + 9];
    }
    assert s[p + 10..p + 17] == "UTF-8''";
    UpperMarkerMatches(s, p + 10);
  }

  /** A token that ends the header has no `"` or `;` anywhere in it. */
  lemma TokenRunsToEnd(s: string, q: nat)
    requires q < |s| && IsToken(s[q..])
    ensures s[q] != '"'
    ensures forall k :: q <= k < |s| ==> s[k] != '"' && s[k] != ';'
  {
    var v := s[q..];
    forall k | q <= k < |s| ensures s[k] != '"' && s[k] != ';' {
      assert s[k] == v[k - q];
    }
  }

  const QuotedParam := Param + "=\""

  /** `filename="..."` around a token captures the token, when nothing before it
      has an `f`. */
  lemma QuotedCaptures(s: string, p: nat, e: nat)
    requires p + 10 < e < |s| && s[p..p + 10] == QuotedParam && IsToken(s[p + 10..e]) && s[e] == '"'
    requires forall k :: 0 <= k < p ==> !SameIgnoringCase(s[k], 'f')
    ensures FirstMatch(s, 0) == Some(s[p + 10..e])
  {
    SkipText(s, p);
    LiteralMatches(s, p, Param, "=\"");
    assert s[p + 8] == '=' && s[p + 9] == '"' by {
      assert s[p..p + 10][8] == s[p + 8] && s[p..p + 10][9] == s[p + 9];
    }
    var v := s[p + 10..e];
    forall k | p + 10 <= k < e ensures s[k] != '"' && s[k] != ';' {
      assert s[k] == v[k - (p + 10)];
    }
    QuotedMatchAt(s, p, e);
  }

  /** The same, for a header built by concatenation. */
  lemma ExtendedParamCaptures(pre: string, v: string)
    requires forall k :: 0 <= k < |pre| ==> !SameIgnoringCase(pre[k], 'f')
    requires IsToken(v)
    ensures FirstMatch(pre + ExtendedParam + v, 0) == Some(v)
  {
    var s := pre + ExtendedParam + v;
    assert s[|pre|..|pre| + 17] == ExtendedParam;
    assert s[|pre| + 17..] == v;
    ExtendedCaptures(s, |pre|);
  }

  lemma QuotedParamCaptures(pre: string, v: string)
    requires forall k :: 0 <= k < |pre| ==> !SameIgnoringCase(pre[k], 'f')
    requires IsToken(v)
    ensures FirstMatch(pre + QuotedParam + v + "\"", 0) == Some(v)
  {
    var s := pre + QuotedParam + v + "\"";
    var e := |pre| + 10 + |v|;
    assert s[|pre|..|pre| + 10] == QuotedParam;
    assert s[|pre| + 10..e] == v;
    assert s[e] == '"';
    QuotedCaptures(s, |pre|, e);
  }

  const AttachmentPrefix := "attachment; "

  lemma AttachmentPrefixHasNoF()
    ensures forall k :: 0 <= k < |AttachmentPrefix| ==> !SameIgnoringCase(AttachmentPrefix[k], 'f')
  {
  }

  /** The extended form `filename*=UTF-8''` followed by `encodeURIComponent(name)`
      gives back `name`. */
  lemma ExtendedFilenameRoundTrip(name: string)
    requires name != ""
    ensures FilenameFromDisposition(Some(AttachmentPrefix + ExtendedParam + EncodeComponent(name))) == Some(name)
  {
    var enc := EncodeComponent(name);
    assert IsToken(enc) by {
      forall k | 0 <= k < |enc| ensures enc[k] != '"' && enc[k] != ';' { }
    }
    AttachmentPrefixHasNoF();
    ExtendedParamCaptures(AttachmentPrefix, enc);
    DecodeEncode(name);
  }

  /** A quoted `filename="..."` value is the captured token; it is percent-decoded
      when it decodes, and returned raw when it does not. */
  lemma QuotedFilename(v: string)
    requires IsToken(v)
    ensures FilenameFromDisposition(Some(AttachmentPrefix + QuotedParam + v + "\"")) ==
            Some(DecodeComponent(v).GetOr(v))
  {
    AttachmentPrefixHasNoF();
    QuotedParamCaptures(AttachmentPrefix, v);
  }

  /** A quoted name with no escapes comes back unchanged. */
  lemma PlainQuotedFilename(v: string)
    requires IsToken(v) && '%' !in v
    ensures FilenameFromDisposition(Some(AttachmentPrefix + QuotedParam + v + "\"")) == Some(v)
  {
    QuotedFilename(v);
    DecodePlain(v);
  }

  /** `filename="100%.txt"` does not percent-decode, so the raw token is used. */
  lemma MalformedEscapeKeptRaw()
    ensures FilenameFromDisposition(Some(AttachmentPrefix + QuotedParam + "100%.txt" + "\"")) == Some("100%.txt")
  {
    var v := "100%.txt";
    assert IsToken(v);
    QuotedFilename(v);
    assert v == "100" + "%.txt";
    DecodeAfterPlain("100", "%.txt");
    assert DecodeComponent("%.txt") == None;
  }

  /** `ï` (U+00EF) is escaped as the two octets C3 AF. */
  lemma EscapeOfDiaeresisI()
    ensures EncodeChar('ï') == "%C3%AF"
  {
    assert Utf8('ï' as int) == [0xC3, 0xAF];
    assert HexDigit(0xC) == 'C' && HexDigit(3) == '3' && HexDigit(0xA) == 'A' && HexDigit(0xF) == 'F';
    assert PercentEncode([0xAF]) == "%AF" by {
      assert [0xAF][1..] == [];
    }
    assert [0xC3, 0xAF][1..] == [0xAF];
  }

  /** `na`, the escapes of `ï`, then `ve.txt`, percent-decode to `naïve.txt`. */
  lemma NaiveEscapesDecode()
    ensures DecodeComponent("na" + (EncodeChar('ï') + "ve.txt")) == Some("na" + (['ï'] + "ve.txt"))
  {
    DecodeEncodedChar('ï', "ve.txt");
    DecodePlain("ve.txt");
    DecodeAfterPlain("na", EncodeChar('ï') + "ve.txt");
  }

  lemma NaiveSpelling(enc: string, name: string)
    requires enc == "na%C3%AFve.txt" && name == "naïve.txt"
    ensures enc == "na" + (EncodeChar('ï') + "ve.txt") && name == "na" + (['ï'] + "ve.txt")
  {
    EscapeOfDiaeresisI();
  }

  /** `filename*=UTF-8''na%C3%AFve.txt` names the file `naïve.txt`. */
  lemma NaiveDecodes()
    ensures FilenameFromDisposition(Some(AttachmentPrefix + ExtendedParam + "na%C3%AFve.txt")) == Some("naïve.txt")
  {
    var enc := "na%C3%AFve.txt";
    assert IsToken(enc);
    AttachmentPrefixHasNoF();
    ExtendedParamCaptures(AttachmentPrefix, enc);
    NaiveSpelling(enc, "naïve.txt");
    NaiveEscapesDecode();
  }

  // ---------------------------------------------------------------- name from the URL

  const DefaultName := "download"

  /** `nameFromUrl`, given the URL's path (`None`: the URL does not parse): the
      last path segment, percent-decoded, or the placeholder when the segment is
      empty, or the URL or the segment cannot be decoded. */
  function NameFromUrl(pathname: Option<string>): (name: string)
    ensures name != ""
  {
    match pathname
    case None => DefaultName
    case Some(path) =>
      var last := LastPiece(path, '/');
      var base := if last != "" then last else DefaultName;
      match DecodeComponent(base)
      case Some(decoded) => decoded
      case None => DefaultName
  }

  /** A path ending in an encoded segment names the file by that segment decoded. */
  lemma NameFromEncodedSegment(dir: string, name: string)
    requires name != ""
    ensures NameFromUrl(Some(dir + "/" + EncodeComponent(name))) == name
  {
    var enc := EncodeComponent(name);
    assert '/' !in enc by {
      forall k | 0 <= k < |enc| ensures enc[k] != '/' { }
    }
    LastPieceAfter(dir, '/', enc);
    assert dir + "/" + enc == dir + ['/'] + enc;
    DecodeEncode(name);
  }

  /** A URL that does not parse gives the placeholder. */
  lemma NameFromUnparsableUrl()
    ensures NameFromUrl(None) == DefaultName
  {
  }

  /** A last segment that fails to percent-decode gives the placeholder, not the
      raw segment (unlike a filename in `Content-Disposition`). */
  lemma NameFromUndecodableSegment(path: string)
    requires LastPiece(path, '/') != "" && DecodeComponent(LastPiece(path, '/')).None?
    ensures NameFromUrl(Some(path)) == DefaultName
  {
  }

  /** A last segment that decodes names the file by its decoding. */
  lemma NameFromDecodedSegment(path: string)
    requires LastPiece(path, '/') != "" && DecodeComponent(LastPiece(path, '/')).Some?
    ensures NameFromUrl(Some(path)) == DecodeComponent(LastPiece(path, '/')).value
  {
  }

  /** The path `/100%.txt` names the file `download`: `%.t` is no escape. */
  lemma MalformedSegmentGivesPlaceholder()
    ensures NameFromUrl(Some("/100%.txt")) == DefaultName
  {
    var seg := "100%.txt";
    LastPieceAfter("", '/', seg);
    assert "/100%.txt" == "" + ['/'] + seg;
    assert seg == "100" + "%.txt";
    DecodeAfterPlain("100", "%.txt");
    assert DecodeComponent("%.txt") == None;
    NameFromUndecodableSegment("/100%.txt");
  }

  /** A path ending in `/` (a directory-like URL) gives the placeholder. */
  lemma NameFromDirectoryPath(dir: string)
    ensures NameFromUrl(Some(dir + "/")) == DefaultName
  {
    LastPieceAfter(dir, '/', "");
    assert dir + "/" == dir + ['/'] + "";
    DecodePlain(DefaultName);
  }

  // ---------------------------------------------------------------- the probe

  datatype ProbeRequest = Head | RangedGet(range: string)

  const FirstByte := "bytes=0-0"

  /** The value of `Number(header)` for a non-empty header: whitespace around
      decimal digits is ignored and blank text is 0; any other text is kept as is
      (the model does not compute JavaScript's other numeric syntaxes or NaN). */
  datatype Size = Count(n: nat) | NotDecimal(raw: string)

  datatype FileMetadata = FileMetadata(mime: Option<string>, size: Option<Size>, name: string)

  function SizeOf(header: string): (sz: Size)
    ensures sz.Count? && Trim(header) != "" ==> ParseDecimal(Trim(header)) == Some(sz.n)
    ensures sz.NotDecimal? <==> Trim(header) != "" && !AllDigits(Trim(header))
    ensures Trim(header) == "" ==> sz == Count(0)
  {
    var t := Trim(header);
    if t == "" then Count(0)
    else match ParseDecimal(t)
      case Some(n) => Count(n)
      case None => NotDecimal(header)
  }

  /** The metadata read from the probe's final response; the name comes from the
      disposition header, else from the URL path. */
  function Describe(r: Response, pathname: Option<string>): (m: FileMetadata)
    ensures m.mime.Some? <==> Given(HeaderValue(r.headers, "content-type"))
    ensures m.mime.Some? ==> m.mime.value == r.headers["content-type"]
    ensures m.size.Some? <==> Given(HeaderValue(r.headers, "content-length"))
    ensures m.size.Some? ==> m.size.value == SizeOf(r.headers["content-length"])
    ensures m.name != ""
    ensures FilenameFromDisposition(HeaderValue(r.headers, "content-disposition")).None? ==>
              m.name == NameFromUrl(pathname)
    ensures FilenameFromDisposition(HeaderValue(r.headers, "content-disposition")).Some? ==>
              m.name == FilenameFromDisposition(HeaderValue(r.headers, "content-disposition")).value
  {
    var mime := HeaderValue(r.headers, "content-type");
    var sizeHeader := HeaderValue(r.headers, "content-length");
    var fromHeader := FilenameFromDisposition(HeaderValue(r.headers, "content-disposition"));
    FileMetadata(
      if Given(mime) then mime else None,
      if Given(sizeHeader) then Some(SizeOf(sizeHeader.value)) else None,
      if fromHeader.Some? then fromHeader.value else NameFromUrl(pathname))
  }

  /** Statuses with which an origin refuses `HEAD`. */
  predicate RefusesHead(status: int) {
    status == 405 || status == 403
  }

  /** `getMetadata`: `fetch` stands for the origin (with the stored cookie, following
      redirects), `pathname` for the path of the direct URL. The result lists the
      requests issued, in order, and the metadata. */
  function GetMetadata(fetch: ProbeRequest -> Response, pathname: Option<string>)
    : (p: (seq<ProbeRequest>, FileMetadata))
    ensures p.0 == if RefusesHead(fetch(Head).status) then [Head, RangedGet(FirstByte)] else [Head]
    ensures p.1 == Describe(fetch(p.0[|p.0| - 1]), pathname)
  {
    var head := fetch(Head);
    if RefusesHead(head.status) then
      ([Head, RangedGet(FirstByte)], Describe(fetch(RangedGet(FirstByte)), pathname))
    else
      ([Head], Describe(head, pathname))
  }

  /** An origin that answers `HEAD` with 405 gets exactly one more request, a GET
      for the first byte, and the metadata comes from that response's headers. */
  lemma HeadRefusedFallsBack(fetch: ProbeRequest -> Response, pathname: Option<string>, mime: string, length: nat)
    requires fetch(Head).status == 405
    requires fetch(RangedGet(FirstByte)).headers ==
             map["content-type" := mime, "content-length" := NatToDecimal(length)]
    requires mime != ""
    ensures var (requests, meta) := GetMetadata(fetch, pathname);
            && requests == [Head, RangedGet(FirstByte)]
            && meta == FileMetadata(Some(mime), Some(Count(length)), NameFromUrl(pathname))
  {
    var r := fetch(RangedGet(FirstByte));
    DescribeTypeAndLength(r, pathname, mime, length);
    assert RefusesHead(fetch(Head).status);
  }

  lemma DescribeTypeAndLength(r: Response, pathname: Option<string>, mime: string, length: nat)
    requires r.headers == map["content-type" := mime, "content-length" := NatToDecimal(length)]
    requires mime != ""
    ensures Describe(r, pathname) == FileMetadata(Some(mime), Some(Count(length)), NameFromUrl(pathname))
  {
    var cl := NatToDecimal(length);
    TrimUntouched(cl);
    ParseNatToDecimal(length);
    assert SizeOf(cl) == Count(length);
    assert HeaderValue(r.headers, "content-disposition") == None;
    assert HeaderValue(r.headers, "content-type") == Some(mime);
    assert HeaderValue(r.headers, "content-length") == Some(cl);
  }

  /** Without a disposition header, or with one that has no `filename`
      parameter, the name comes from the URL's last path segment. */
  lemma NoFilenameParameterUsesPath(r: Response, pathname: Option<string>)
    requires "content-disposition" in r.headers ==>
               forall k :: 0 <= k <= |r.headers["content-disposition"]| ==>
                 !MatchesAt(r.headers["content-disposition"], k, Param)
    ensures Describe(r, pathname).name == NameFromUrl(pathname)
  {
    if "content-disposition" in r.headers {
      NoParameterNoFilename(r.headers["content-disposition"]);
    }
  }
}

=== FILE: resolve.dfy ===
/** The decision `POST /resolve` makes over a fresh listing: which failure to
    report, or which direct URL to resolve, and the stream link handed back. */
module Resolve {
  import opened Wrappers
  import opened JsonValue
  import opened Extractor
  import Uri

  datatype Outcome =
    | NoFilesFound              // `NO_FILES_FOUND`
    | BadPick(lastIndex: int)   // `BAD_PICK`, "pick must be between 0 and lastIndex"
    | NoDirectUrl               // `NO_DIRECT_URL`
    | Resolved(directUrl: Json) // go on to the metadata probe

  /** `Number.isInteger(pick) ? pick : 0` on the request body's `pick` field
      (`None`: absent). */
  function PickIndex(pick: JsValue): (index: int)
    ensures pick.Some? && pick.value.JNum? ==> index == pick.value.n
    ensures !(pick.Some? && pick.value.JNum?) ==> index == 0
  {
    match pick
    case Some(JNum(n)) => n
    case _ => 0
  }

  /** The checks in source order: an empty listing first, then the bounds of the
      pick, then a falsy direct URL. */
  function ResolvePick(files: seq<FileDescriptor>, pick: JsValue): (o: Outcome)
    ensures o.NoFilesFound? <==> files == []
    ensures o.BadPick? <==> files != [] && (PickIndex(pick) < 0 || PickIndex(pick) >= |files|)
    ensures o.BadPick? ==> o.lastIndex == |files| - 1
    ensures o.NoDirectUrl? <==> 0 <= PickIndex(pick) < |files| && !Truthy(Some(files[PickIndex(pick)].directUrl))
    ensures o.Resolved? ==> 0 <= PickIndex(pick) < |files| && o.directUrl == files[PickIndex(pick)].directUrl
    ensures o.Resolved? ==> Truthy(Some(o.directUrl))
  {
    var index := PickIndex(pick);
    if |files| == 0 then NoFilesFound
    else if index < 0 || index >= |files| then BadPick(|files| - 1)
    else
      var directUrl := Or(Some(files[index].directUrl), Some(JNull));
      if !Truthy(directUrl) then NoDirectUrl else Resolved(directUrl.value)
  }

  /** For a listing of three files, picks 3 and -1 are out of bounds and pick 2
      passes the bounds check; a missing pick means the first file. */
  lemma ThreeFilePicks(files: seq<FileDescriptor>)
    requires |files| == 3
    ensures ResolvePick(files, Some(JNum(3))) == BadPick(2)
    ensures ResolvePick(files, Some(JNum(-1))) == BadPick(2)
    ensures !ResolvePick(files, Some(JNum(2))).BadPick?
    ensures !ResolvePick(files, None).BadPick? && !ResolvePick(files, Some(JStr("2"))).BadPick?
  {
  }

  /** On a crawl's listing, a picked file without a direct URL yields
      `NO_DIRECT_URL`, and a resolved URL is the one recorded for that file. */
  lemma ListingPicks(resps: seq<ObservedResponse>, pick: JsValue)
    ensures var files := Cap(Extract(resps).found);
            var o := ResolvePick(files, pick);
            var i := PickIndex(pick);
            && (0 <= i < |files| && files[i].directUrl == JNull ==> o == NoDirectUrl)
            && (0 <= i < |files| && files[i].directUrl != JNull ==> o == Resolved(files[i].directUrl))
  {
    ListingIsDeduplicatedPrefix(resps);
  }

  /** The link returned as `downloadUrl`. */
  function StreamUrl(protocol: string, host: string, directUrl: string): string {
    protocol + "://" + host + "/stream?url=" + Uri.EncodeComponent(directUrl)
  }

  /** The `url` query parameter of the stream link is the direct URL: it is the
      whole rest of the link (no `&` or `#` can end it early) and decodes back to
      the direct URL. */
  lemma StreamUrlCarriesDirectUrl(protocol: string, host: string, directUrl: string)
    ensures var prefix := protocol + "://" + host + "/stream?url=";
            var link := StreamUrl(protocol, host, directUrl);
            var param := link[|prefix|..];
            && link[..|prefix|] == prefix
            && '&' !in param && '#' !in param
            && Uri.DecodeComponent(param) == Some(directUrl)
  {
    var prefix := protocol + "://" + host + "/stream?url=";
    var param := Uri.EncodeComponent(directUrl);
    assert StreamUrl(protocol, host, directUrl)[|prefix|..] == param;
    Uri.DecodeEncode(directUrl);
  }
}

=== FILE: stream.dfy ===
/** The reply of `GET /stream` once the upstream response is in: an error carrying
    the upstream status, or a relay of the body with three headers mirrored. */
module Stream {
  import opened Wrappers
  import opened Http

  const DefaultContentType := "application/octet-stream"

  datatype Reply =
    | UpstreamError(status: int)
    | Relay(status: int, headers: map<string, string>)

  /** The headers set on the downstream response: `Content-Type` always (the
      upstream value or the generic binary type), `Content-Length` and
      `Content-Disposition` only when upstream sent a non-empty value. */
  function DownstreamHeaders(upstream: map<string, string>): (h: map<string, string>)
    ensures h.Keys <= {"Content-Type", "Content-Length", "Content-Disposition"}
    ensures "Content-Type" in h
    ensures h["Content-Type"] == if Given(HeaderValue(upstream, "content-type"))
                                 then upstream["content-type"] else DefaultContentType
    ensures "Content-Length" in h <==> Given(HeaderValue(upstream, "content-length"))
    ensures "Content-Length" in h ==> h["Content-Length"] == upstream["content-length"]
    ensures "Content-Disposition" in h <==> Given(HeaderValue(upstream, "content-disposition"))
    ensures "Content-Disposition" in h ==> h["Content-Disposition"] == upstream["content-disposition"]
  {
    var ct := HeaderValue(upstream, "content-type");
    var cl := HeaderValue(upstream, "content-length");
    var cd := HeaderValue(upstream, "content-disposition");
    var h := map["Content-Type" := if Given(ct) then ct.value else DefaultContentType];
    var h := if Given(cl) then h["Content-Length" := cl.value] else h;
    if Given(cd) then h["Content-Disposition" := cd.value] else h
  }

  /** The stream reply: a non-ok upstream status is surfaced as an error with that
      same status; otherwise the body is relayed under the default status 200 (the
      upstream status is not copied) with the selected headers. */
  function Respond(upstream: Response): (r: Reply)
    ensures r.UpstreamError? <==> !IsOk(upstream.status)
    ensures r.UpstreamError? ==> r.status == upstream.status
    ensures r.Relay? ==> r.status == 200 && r.headers == DownstreamHeaders(upstream.headers)
  {
    if !IsOk(upstream.status) then UpstreamError(upstream.status)
    else Relay(200, DownstreamHeaders(upstream.headers))
  }

  /** A 206 partial response carrying all three headers is relayed with exactly
      those headers, unchanged. */
  lemma PartialContentMirrorsHeaders(ct: string, cl: string, cd: string)
    requires ct != "" && cl != "" && cd != ""
    ensures var up := map["content-type" := ct, "content-length" := cl, "content-disposition" := cd];
            Respond(Response(206, up)) ==
              Relay(200, map["Content-Type" := ct, "Content-Length" := cl, "Content-Disposition" := cd])
  {
  }
}

=== FILE: text.dfy ===
/** String helpers with the meaning JavaScript's `String.prototype` methods give them:
    `split` on one character, `trim`, `indexOf`, `includes`, and the decimal text of
    an integer as produced by `String(n)` and read back by `Number(s)`. */
module Text {
  import opened Wrappers

  /** The code points `String.prototype.trim` strips: ECMAScript's WhiteSpace
      (TAB, VT, FF, ZWNBSP and every space separator) and LineTerminator. */
  predicate IsJsSpace(c: char) {
    || c == '\t' || c == '\n' || c == '\U{000B}' || c == '\U{000C}' || c == '\r'
    || c == ' ' || c == '\U{00A0}' || c == '\U{1680}'
    || ('\U{2000}' <= c <= '\U{200A}')
    || c == '\U{2028}' || c == '\U{2029}' || c == '\U{202F}' || c == '\U{205F}'
    || c == '\U{3000}' || c == '\U{FEFF}'
  }

  predicate AllSpace(s: string) {
    forall k :: 0 <= k < |s| ==> IsJsSpace(s[k])
  }

  /** Neither the first nor the last character is white space. */
  predicate NoBorderSpace(s: string) {
    s == [] || (!IsJsSpace(s[0]) && !IsJsSpace(s[|s| - 1]))
  }

  // ---------------------------------------------------------------- split / join

  /** `s.split(sep)` for a one-character separator: the pieces between separators,
      empty pieces included, so there is always at least one. */
  function Split(s: string, sep: char): (parts: seq<string>)
    ensures |parts| >= 1
    ensures forall i :: 0 <= i < |parts| ==> sep !in parts[i]
  {
    if s == [] then [""]
    else
      var rest := Split(s[1..], sep);
      if s[0] == sep then [""] + rest
      else [[s[0]] + rest[0]] + rest[1..]
  }

  /** `parts.join(sep)`. */
  function Join(parts: seq<string>, sep: char): string {
    if |parts| == 0 then ""
    else if |parts| == 1 then parts[0]
    else parts[0] + [sep] + Join(parts[1..], sep)
  }

  /** Splitting loses nothing: joining the pieces again gives back the input. */
  lemma {:induction false} JoinSplit(s: string, sep: char)
    ensures Join(Split(s, sep), sep) == s
  {
    if s != [] {
      var rest := Split(s[1..], sep);
      JoinSplit(s[1..], sep);
      if s[0] == sep {
        assert Split(s, sep) == [""] + rest;
        assert Join([""] + rest, sep) == [sep] + Join(rest, sep) by {
          assert ([""] + rest)[1..] == rest;
        }
        assert s == [s[0]] + s[1..];
      } else {
        var parts := Split(s, sep);
        assert parts == [[s[0]] + rest[0]] + rest[1..];
        if |rest| == 1 {
          assert Join(parts, sep) == [s[0]] + rest[0];
          assert s == [s[0]] + s[1..];
        } else {
          assert parts[1..] == rest[1..];
          assert Join(rest, sep) == rest[0] + [sep] + Join(rest[1..], sep);
          assert Join(parts, sep) == [s[0]] + rest[0] + [sep] + Join(rest[1..], sep);
          assert s == [s[0]] + s[1..];
        }
      }
    }
  }

  /** A piece free of the separator, followed by the separator, starts a new piece. */
  lemma {:induction false} SplitAfterPiece(p: string, t: string, sep: char)
    requires sep !in p
    ensures Split(p + [sep] + t, sep) == [p] + Split(t, sep)
  {
    if p == [] {
      assert p + [sep] + t == [sep] + t;
      assert ([sep] + t)[1..] == t;
    } else {
      SplitAfterPiece(p[1..], t, sep);
      assert (p + [sep] + t)[1..] == p[1..] + [sep] + t;
      assert [p[0]] + p[1..] == p;
    }
  }

  /** A string free of the separator is a single piece. */
  lemma {:induction false} SplitWhole(p: string, sep: char)
    requires sep !in p
    ensures Split(p, sep) == [p]
  {
    if p != [] {
      SplitWhole(p[1..], sep);
      assert [p[0]] + p[1..] == p;
    }
  }

  /** Splitting undoes joining pieces that are free of the separator. */
  lemma {:induction false} SplitJoin(parts: seq<string>, sep: char)
    requires |parts| >= 1
    requires forall i :: 0 <= i < |parts| ==> sep !in parts[i]
    ensures Split(Join(parts, sep), sep) == parts
  {
    if |parts| == 1 {
      SplitWhole(parts[0], sep);
    } else {
      SplitJoin(parts[1..], sep);
      SplitAfterPiece(parts[0], Join(parts[1..], sep), sep);
      assert [parts[0]] + parts[1..] == parts;
    }
  }

  /** The text after the last separator. */
  function LastPiece(s: string, sep: char): (r: string)
    ensures sep !in r
  {
    var parts := Split(s, sep);
    parts[|parts| - 1]
  }

  /** Joining splits off the last piece behind the final separator. */
  lemma {:induction false} JoinLast(parts: seq<string>, sep: char)
    requires |parts| >= 2
    ensures Join(parts, sep) == Join(parts[..|parts| - 1], sep) + [sep] + parts[|parts| - 1]
    decreases |parts|
  {
    var n := |parts|;
    if n == 2 {
      assert Join(parts[1..], sep) == parts[1];
      assert Join(parts[..1], sep) == parts[0];
    } else {
      var tail := parts[1..];
      JoinLast(tail, sep);
      var init := parts[..n - 1];
      assert init[1..] == tail[..|tail| - 1];
      assert Join(init, sep) == init[0] + [sep] + Join(init[1..], sep);
    }
  }

  /** The last piece is exactly the longest separator-free suffix of `s`. */
  lemma LastPieceIsFinalSegment(s: string, sep: char)
    ensures |LastPiece(s, sep)| <= |s|
    ensures LastPiece(s, sep) == s[|s| - |LastPiece(s, sep)|..]
    ensures |LastPiece(s, sep)| < |s| ==> s[|s| - |LastPiece(s, sep)| - 1] == sep
  {
    var parts := Split(s, sep);
    var r := LastPiece(s, sep);
    JoinSplit(s, sep);
    if |parts| == 1 {
      assert s == r;
    } else {
      JoinLast(parts, sep);
      var front := Join(parts[..|parts| - 1], sep);
      assert s == front + [sep] + r;
      assert s[|s| - |r|..] == r;
      assert s[|s| - |r| - 1] == sep;
    }
  }

  /** After a final separator, the last piece is whatever follows it. */
  lemma LastPieceAfter(dir: string, sep: char, last: string)
    requires sep !in last
    ensures LastPiece(dir + [sep] + last, sep) == last
  {
    var s := dir + [sep] + last;
    var r := LastPiece(s, sep);
    LastPieceIsFinalSegment(s, sep);
    assert forall k :: |dir| < k < |s| ==> s[k] != sep by {
      forall k | |dir| < k < |s| ensures s[k] != sep {
        assert s[k] == last[k - |dir| - 1];
      }
    }
    assert forall k :: |s| - |r| <= k < |s| ==> s[k] != sep by {
      forall k | |s| - |r| <= k < |s| ensures s[k] != sep {
        assert s[k] == r[k - (|s| - |r|)];
      }
    }
    assert s[|dir|] == sep;
  }

  // ---------------------------------------------------------------- indexOf, includes

  /** `s.indexOf(c)`: the first position of `c`, or -1 when it does not occur. */
  function IndexOf(s: string, c: char): (i: int)
    ensures -1 <= i < |s|
    ensures i == -1 <==> c !in s
    ensures 0 <= i ==> s[i] == c && c !in s[..i]
  {
    if s == [] then -1
    else if s[0] == c then 0
    else
      var j := IndexOf(s[1..], c);
      if j == -1 then -1
      else
        assert s[..j + 1] == [s[0]] + s[1..][..j];
        j + 1
  }

  /** Text joined at a separator its first part does not hold splits back
      uniquely at that separator. */
  lemma JoinedAtFirst(a: string, b: string, c: string, d: string, sep: char)
    requires sep !in a && sep !in c
    requires a + [sep] + b == c + [sep] + d
    ensures a == c && b == d
  {
    var t := a + [sep] + b;
    if |a| < |c| {
      BeforeSeparator(c, sep, d, |a|);
      SeparatorAt(a, sep, b);
      assert false;
    } else if |c| < |a| {
      BeforeSeparator(a, sep, b, |c|);
      SeparatorAt(c, sep, d);
      assert false;
    }
    assert a == t[..|a|] && c == t[..|c|];
    assert b == t[|a| + 1..] && d == t[|c| + 1..];
  }

  lemma BeforeSeparator(a: string, sep: char, b: string, i: nat)
    requires sep !in a && i < |a|
    ensures (a + [sep] + b)[i] != sep
  {
    assert (a + [sep] + b)[i] == a[i];
  }

  lemma SeparatorAt(a: string, sep: char, b: string)
    ensures (a + [sep] + b)[|a|] == sep
  {
  }

  /** `s.includes(t)`: `t` occurs somewhere in `s`. */
  predicate Includes(s: string, t: string) {
    exists i :: 0 <= i <= |s| && OccursAt(s, t, i)
  }

  /** `t` occurs in `s` starting at position `i`. */
  predicate OccursAt(s: string, t: string, i: nat) {
    i + |t| <= |s| && s[i..i + |t|] == t
  }

  // ---------------------------------------------------------------- trim

  /** Number of white-space characters at the start of `s`. */
  function LeadingSpace(s: string): (n: nat)
    ensures n <= |s|
    ensures AllSpace(s[..n])
    ensures n < |s| ==> !IsJsSpace(s[n])
  {
    if s != [] && IsJsSpace(s[0]) then
      var n := 1 + LeadingSpace(s[1..]);
      assert forall k :: 1 <= k < n ==> s[k] == s[1..][k - 1];
      n
    else 0
  }

  /** Number of white-space characters at the end of `s`. */
  function TrailingSpace(s: string): (n: nat)
    ensures n <= |s|
    ensures AllSpace(s[|s| - n..])
    ensures n < |s| ==> !IsJsSpace(s[|s| - 1 - n])
  {
    if s != [] && IsJsSpace(s[|s| - 1]) then
      var n := 1 + TrailingSpace(s[..|s| - 1]);
      assert forall k :: |s| - n <= k < |s| - 1 ==> s[k] == s[..|s| - 1][k];
      n
    else 0
  }

  /** `s.trim()`: white space removed from both ends, start first. */
  function Trim(s: string): (r: string)
    ensures NoBorderSpace(r)
    ensures |r| <= |s| - LeadingSpace(s)
    ensures r == s[LeadingSpace(s)..LeadingSpace(s) + |r|]
    ensures AllSpace(s[LeadingSpace(s) + |r|..])
  {
    var a := LeadingSpace(s);
    var t := s[a..];
    var r := t[..|t| - TrailingSpace(t)];
    assert r == [] || r[0] == s[a];
    r
  }

  /** Trimming is the unique way to peel white space off both ends: whatever
      white space surrounds a string free of border white space, `trim` removes
      exactly it. */
  lemma TrimPadded(pre: string, mid: string, post: string)
    requires AllSpace(pre) && AllSpace(post) && NoBorderSpace(mid)
    ensures Trim(pre + mid + post) == mid
  {
    var s := pre + mid + post;
    var a := LeadingSpace(s);
    if mid == [] {
      assert AllSpace(s) by {
        forall k | 0 <= k < |s| ensures IsJsSpace(s[k]) {
          if k < |pre| { assert s[k] == pre[k]; } else { assert s[k] == post[k - |pre|]; }
        }
      }
      assert a == |s|;
    } else {
      assert s[|pre|] == mid[0];
      assert a == |pre|;
      var r := Trim(s);
      var e := a + |r|;
      assert s[|pre| + |mid| - 1] == mid[|mid| - 1];
      assert e == |pre| + |mid|;
      assert s[|pre|..|pre| + |mid|] == mid;
    }
  }

  /** Trimming only removes characters. */
  lemma TrimKeepsOut(s: string, c: char)
    requires c !in s
    ensures c !in Trim(s)
  {
    var r := Trim(s);
    var a := LeadingSpace(s);
    forall k | 0 <= k < |r| ensures r[k] != c {
      assert r[k] == s[a + k];
    }
  }

  /** A string without border white space is its own trim; in particular `trim`
      is idempotent. */
  lemma TrimUntouched(s: string)
    requires NoBorderSpace(s)
    ensures Trim(s) == s
  {
    TrimPadded("", s, "");
    assert "" + s + "" == s;
  }

  // ---------------------------------------------------------------- decimal numerals

  predicate IsDigit(c: char) { '0' <= c <= '9' }

  predicate AllDigits(s: string) {
    forall k :: 0 <= k < |s| ==> IsDigit(s[k])
  }

  function DigitChar(d: nat): (c: char)
    requires d < 10
    ensures IsDigit(c) && c as int - '0' as int == d
  {
    (d + '0' as int) as char
  }

  function DigitValue(c: char): (d: nat)
    requires IsDigit(c)
    ensures d < 10
  {
    c as int - '0' as int
  }

  /** `String(n)` for a non-negative integer: its shortest decimal numeral. */
  function NatToDecimal(n: nat): (s: string)
    ensures |s| >= 1 && AllDigits(s)
    ensures |s| > 1 ==> s[0] != '0'
  {
    if n < 10 then [DigitChar(n)]
    else
      var s := NatToDecimal(n / 10) + [DigitChar(n % 10)];
      assert s[0] == NatToDecimal(n / 10)[0];
      s
  }

  /** `String(n)` for any integer (the integral part of JavaScript's number
      formatting; no exponent form). */
  function IntToDecimal(n: int): (s: string)
    ensures |s| >= 1
    ensures (s[0] == '-') <==> n < 0
  {
    if n < 0 then "-" + NatToDecimal(-n) else NatToDecimal(n)
  }

  /** The value of a string of decimal digits, leading zeros allowed. */
  function DecimalValue(s: string): nat
    requires AllDigits(s)
  {
    if s == [] then 0 else 10 * DecimalValue(s[..|s| - 1]) + DigitValue(s[|s| - 1])
  }

  /** `Number(s)` restricted to plain decimal numerals: `None` for every other text. */
  function ParseDecimal(s: string): (r: Option<nat>)
    ensures r.Some? <==> s != [] && AllDigits(s)
  {
    if s != [] && AllDigits(s) then Some(DecimalValue(s)) else None
  }

  /** Reading back the decimal text of a number gives the number. */
  lemma {:induction false} ParseNatToDecimal(n: nat)
    ensures ParseDecimal(NatToDecimal(n)) == Some(n)
  {
    var s := NatToDecimal(n);
    if n >= 10 {
      ParseNatToDecimal(n / 10);
      assert s[..|s| - 1] == NatToDecimal(n / 10);
    } else {
      assert s[..|s| - 1] == [];
      assert DecimalValue(s) == 10 * DecimalValue([]) + DigitValue(s[0]);
    }
  }

  /** Distinct numbers have distinct decimal texts. */
  lemma IntToDecimalInjective(m: int, n: int)
    requires IntToDecimal(m) == IntToDecimal(n)
    ensures m == n
  {
    if m < 0 {
      assert IntToDecimal(m)[1..] == NatToDecimal(-m);
      assert IntToDecimal(n)[1..] == NatToDecimal(-n);
      ParseNatToDecimal(-m);
      ParseNatToDecimal(-n);
    } else {
      ParseNatToDecimal(m);
      ParseNatToDecimal(n);
    }
  }
}

=== FILE: uri.dfy ===
/** `decodeURIComponent` and `encodeURIComponent` as ECMAScript defines them:
    percent-escapes in the sense of section 2.1 of RFC 3986 whose octets spell
    UTF-8 as restricted by RFC 3629 (no overlong forms, no surrogates, nothing
    above U+10FFFF). Decoding fails (JavaScript throws `URIError`) on a malformed
    escape or on octets that are not such UTF-8. */
module Uri {
  import opened Wrappers

  predicate IsHexDigit(c: char) {
    '0' <= c <= '9' || 'a' <= c <= 'f' || 'A' <= c <= 'F'
  }

  function HexValue(c: char): (v: nat)
    requires IsHexDigit(c)
    ensures v < 16
  {
    if '0' <= c <= '9' then c as int - '0' as int
    else if 'a' <= c <= 'f' then c as int - 'a' as int + 10
    else c as int - 'A' as int + 10
  }

  /** The upper-case hexadecimal digit `encodeURIComponent` writes. */
  function HexDigit(v: nat): (c: char)
    requires v < 16
    ensures IsHexDigit(c) && HexValue(c) == v
  {
    if v < 10 then (v + '0' as int) as char else (v - 10 + 'A' as int) as char
  }

  /** A Unicode scalar value: what a Dafny `char` holds. */
  predicate IsScalar(v: int) {
    0 <= v < 0xD800 || 0xE000 <= v < 0x11_0000
  }

  predicate IsOctet(b: int) { 0 <= b < 256 }

  // ---------------------------------------------------------------- UTF-8

  /** The number of leading one bits of an octet. */
  function LeadingOnes(b: nat): (n: nat)
    requires b < 256
    ensures n <= 8
  {
    if b < 0x80 then 0
    else if b < 0xC0 then 1
    else if b < 0xE0 then 2
    else if b < 0xF0 then 3
    else if b < 0xF8 then 4
    else if b < 0xFC then 5
    else if b < 0xFE then 6
    else if b < 0xFF then 7
    else 8
  }

  /** The code point spelt by a multi-octet sequence (its payload bits). */
  function Utf8Value(bs: seq<int>): int
    requires 2 <= |bs| <= 4
  {
    if |bs| == 2 then (bs[0] - 0xC0) * 64 + (bs[1] - 0x80)
    else if |bs| == 3 then (bs[0] - 0xE0) * 4096 + (bs[1] - 0x80) * 64 + (bs[2] - 0x80)
    else (bs[0] - 0xF0) * 262144 + (bs[1] - 0x80) * 4096 + (bs[2] - 0x80) * 64 + (bs[3] - 0x80)
  }

  /** A well-formed multi-octet UTF-8 sequence: a lead octet announcing the length,
      continuation octets `10xxxxxx`, and a value that is neither overlong, nor a
      surrogate, nor above U+10FFFF. */
  predicate IsUtf8Sequence(bs: seq<int>) {
    && 2 <= |bs| <= 4
    && (forall j :: 0 <= j < |bs| ==> IsOctet(bs[j]))
    && LeadingOnes(bs[0]) == |bs|
    && (forall j :: 1 <= j < |bs| ==> 0x80 <= bs[j] < 0xC0)
    && (|bs| == 2 ==> Utf8Value(bs) >= 0x80)
    && (|bs| == 3 ==> Utf8Value(bs) >= 0x800 && !(0xD800 <= Utf8Value(bs) <= 0xDFFF))
    && (|bs| == 4 ==> 0x1_0000 <= Utf8Value(bs) <= 0x10_FFFF)
  }

  lemma Utf8SequenceIsScalar(bs: seq<int>)
    requires IsUtf8Sequence(bs)
    ensures IsScalar(Utf8Value(bs))
  {
  }

  /** The UTF-8 encoding of a code point. */
  function Utf8(v: int): (bs: seq<int>)
    requires IsScalar(v)
    ensures 1 <= |bs| <= 4
    ensures forall j :: 0 <= j < |bs| ==> IsOctet(bs[j])
  {
    if v < 0x80 then [v]
    else if v < 0x800 then [0xC0 + v / 64, 0x80 + v % 64]
    else if v < 0x1_0000 then [0xE0 + v / 4096, 0x80 + (v / 64) % 64, 0x80 + v % 64]
    else [0xF0 + v / 262144, 0x80 + (v / 4096) % 64, 0x80 + (v / 64) % 64, 0x80 + v % 64]
  }

  /** Encoding a code point and decoding the octets gives it back: a single octet
      for ASCII, otherwise a well-formed sequence of the same value. */
  lemma Utf8Decodes(v: int)
    requires IsScalar(v)
    ensures |Utf8(v)| == 1 <==> v < 0x80
    ensures |Utf8(v)| == 1 ==> Utf8(v)[0] == v
    ensures |Utf8(v)| > 1 ==> IsUtf8Sequence(Utf8(v)) && Utf8Value(Utf8(v)) == v
  {
    if 0x80 <= v < 0x800 {
      Utf8TwoOctets(v);
    } else if 0x800 <= v < 0x1_0000 {
      Utf8ThreeOctets(v);
    } else if v >= 0x1_0000 {
      Utf8FourOctets(v);
    }
  }

  lemma Utf8TwoOctets(v: int)
    requires 0x80 <= v < 0x800
    ensures IsUtf8Sequence(Utf8(v)) && Utf8Value(Utf8(v)) == v
  {
    var bs := Utf8(v);
    assert bs == [0xC0 + v / 64, 0x80 + v % 64];
    assert 2 <= v / 64 < 32;
    assert Utf8Value(bs) == (v / 64) * 64 + v % 64;
  }

  lemma Utf8ThreeOctets(v: int)
    requires 0x800 <= v < 0x1_0000 && !(0xD800 <= v <= 0xDFFF)
    ensures IsUtf8Sequence(Utf8(v)) && Utf8Value(Utf8(v)) == v
  {
    var bs := Utf8(v);
    assert bs == [0xE0 + v / 4096, 0x80 + (v / 64) % 64, 0x80 + v % 64];
    assert v / 4096 < 16;
    assert v / 64 == (v / 4096) * 64 + (v / 64) % 64;
    assert Utf8Value(bs) == (v / 4096) * 4096 + ((v / 64) % 64) * 64 + v % 64;
  }

  lemma Utf8FourOctets(v: int)
    requires 0x1_0000 <= v <= 0x10_FFFF
    ensures IsUtf8Sequence(Utf8(v)) && Utf8Value(Utf8(v)) == v
  {
    var bs := Utf8(v);
    assert bs == [0xF0 + v / 262144, 0x80 + (v / 4096) % 64, 0x80 + (v / 64) % 64, 0x80 + v % 64];
    assert v / 262144 <= 4;
    assert v / 64 == (v / 4096) * 64 + (v / 64) % 64;
    assert v / 4096 == (v / 262144) * 64 + (v / 4096) % 64;
    assert Utf8Value(bs) == (v / 262144) * 262144 + ((v / 4096) % 64) * 4096 + ((v / 64) % 64) * 64 + v % 64;
  }

  /** A well-formed sequence is the encoding of its value: decoding accepts only
      the shortest form of each scalar value. */
  lemma Utf8OfSequence(bs: seq<int>)
    requires IsUtf8Sequence(bs)
    ensures IsScalar(Utf8Value(bs)) && Utf8(Utf8Value(bs)) == bs
  {
    var v := Utf8Value(bs);
    if |bs| == 2 {
      DivMod64(bs[0] - 0xC0, bs[1] - 0x80);
    } else if |bs| == 3 {
      DivMod64((bs[0] - 0xE0) * 64 + (bs[1] - 0x80), bs[2] - 0x80);
      DivMod64(bs[0] - 0xE0, bs[1] - 0x80);
      assert v == ((bs[0] - 0xE0) * 64 + (bs[1] - 0x80)) * 64 + (bs[2] - 0x80);
      DivMod4096(bs[0] - 0xE0, (bs[1] - 0x80) * 64 + (bs[2] - 0x80));
    } else {
      var hi := (bs[0] - 0xF0) * 64 + (bs[1] - 0x80);
      var mid := hi * 64 + (bs[2] - 0x80);
      assert v == mid * 64 + (bs[3] - 0x80);
      DivMod64(mid, bs[3] - 0x80);
      DivMod64(hi, bs[2] - 0x80);
      DivMod64(bs[0] - 0xF0, bs[1] - 0x80);
      assert v / 4096 == hi by {
        DivMod4096(hi, (bs[2] - 0x80) * 64 + (bs[3] - 0x80));
      }
      assert v / 262144 == bs[0] - 0xF0 by {
        DivMod262144(bs[0] - 0xF0, (bs[1] - 0x80) * 4096 + (bs[2] - 0x80) * 64 + (bs[3] - 0x80));
      }
    }
  }

  lemma DivMod64(q: int, r: int)
    requires 0 <= q && 0 <= r < 64
    ensures (q * 64 + r) / 64 == q && (q * 64 + r) % 64 == r
  {
  }

  lemma DivMod4096(q: int, r: int)
    requires 0 <= q && 0 <= r < 4096
    ensures (q * 4096 + r) / 4096 == q
  {
  }

  lemma DivMod262144(q: int, r: int)
    requires 0 <= q && 0 <= r < 262144
    ensures (q * 262144 + r) / 262144 == q
  {
  }

  // ---------------------------------------------------------------- percent-escapes

  /** The octet written `%XY` at position `i` of `s`, if there is one there. */
  function OctetAt(s: string, i: nat): (b: Option<nat>)
    ensures b.Some? ==> IsOctet(b.value) && i + 3 <= |s|
  {
    if i + 3 <= |s| && s[i] == '%' && IsHexDigit(s[i + 1]) && IsHexDigit(s[i + 2])
    then Some(16 * HexValue(s[i + 1]) + HexValue(s[i + 2]))
    else None
  }

  /** `count` consecutive escapes at the start of `s`, as octets. */
  function ReadOctets(s: string, count: nat): (r: Option<seq<int>>)
    ensures r.Some? ==> |r.value| == count && 3 * count <= |s|
    ensures r.Some? ==> forall j :: 0 <= j < count ==> IsOctet(r.value[j])
    ensures r.Some? && count > 0 ==> OctetAt(s, 0) == Some(r.value[0])
  {
    if count == 0 then Some([])
    else
      match OctetAt(s, 0)
      case None => None
      case Some(b) =>
        match ReadOctets(s[3..], count - 1)
        case None => None
        case Some(rest) => Some([b] + rest)
  }

  /** The escape that starts `s` (at a `%`): the character it stands for and the
      number of input characters it spans, or `None` where JavaScript throws. */
  function DecodeEscape(s: string): (r: Option<(char, nat)>)
    requires |s| > 0 && s[0] == '%'
    ensures r.Some? ==> 3 <= r.value.1 <= |s|
  {
    match OctetAt(s, 0)
    case None => None
    case Some(b) =>
      var n := LeadingOnes(b);
      if n == 0 then Some((b as char, 3))
      else if n == 1 || n > 4 then None
      else
        match ReadOctets(s, n)
        case None => None
        case Some(bs) =>
          if IsUtf8Sequence(bs) then
            Utf8SequenceIsScalar(bs);
            Some((Utf8Value(bs) as char, 3 * n))
          else None
  }

  /** Every escape that decodes spells the UTF-8 encoding of the character it
      yields, one escape per octet: overlong forms, surrogates, values above
      U+10FFFF and leads `F8`-`FF` are all refused. */
  lemma EscapeIsShortestUtf8(s: string)
    requires |s| > 0 && s[0] == '%' && DecodeEscape(s).Some?
    ensures var (c, k) := DecodeEscape(s).value;
            k == 3 * |Utf8(c as int)| && ReadOctets(s, k / 3) == Some(Utf8(c as int))
  {
    var b := OctetAt(s, 0).value;
    var n := LeadingOnes(b);
    if n == 0 {
      assert ReadOctets(s[3..], 0) == Some([]);
      assert [b] + [] == [b];
    } else {
      var bs := ReadOctets(s, n).value;
      Utf8OfSequence(bs);
    }
  }

  /** `p` put in front of a decoded string; a failure stays a failure. */
  function Prefix(p: string, r: Option<string>): Option<string> {
    match r
    case None => None
    case Some(t) => Some(p + t)
  }

  function Cons(c: char, r: Option<string>): Option<string> {
    Prefix([c], r)
  }

  /** `decodeURIComponent(s)`: `None` where JavaScript throws `URIError`. Every
      character other than an escape stands for itself; every escape stands for one
      character, so a decoded string is never longer than its source and never
      empty unless its source is. */
  function DecodeComponent(s: string): (r: Option<string>)
    ensures r.Some? ==> |r.value| <= |s|
    ensures r.Some? && s != [] ==> |r.value| >= 1
    decreases |s|
  {
    if s == [] then Some([])
    else if s[0] != '%' then Cons(s[0], DecodeComponent(s[1..]))
    else
      match DecodeEscape(s)
      case None => None
      case Some((c, k)) => Cons(c, DecodeComponent(s[k..]))
  }

  /** Text without escapes decodes to itself. */
  lemma {:induction false} DecodePlain(s: string)
    requires '%' !in s
    ensures DecodeComponent(s) == Some(s)
  {
    if s != [] {
      DecodePlain(s[1..]);
      assert [s[0]] + s[1..] == s;
    }
  }

  /** Decoding distributes over a prefix without escapes. */
  lemma {:induction false} DecodeAfterPlain(p: string, t: string)
    requires '%' !in p
    ensures DecodeComponent(p + t) == Prefix(p, DecodeComponent(t))
  {
    if p == [] {
      assert p + t == t;
      match DecodeComponent(t) {
        case None =>
        case Some(d) => assert p + d == d;
      }
    } else {
      var q := p + t;
      assert q[0] == p[0] && q[1..] == p[1..] + t;
      DecodeAfterPlain(p[1..], t);
      match DecodeComponent(t) {
        case None =>
        case Some(d) => assert [p[0]] + (p[1..] + d) == p + d;
      }
    }
  }

  // ---------------------------------------------------------------- which escapes decode

  /** `%XY` with two hexadecimal digits, upper or lower case, is read as the
      octet `XY`. */
  lemma OctetRead(x: char, y: char, rest: string)
    requires IsHexDigit(x) && IsHexDigit(y)
    ensures OctetAt(['%', x, y] + rest, 0) == Some(16 * HexValue(x) + HexValue(y))
  {
    var s := ['%', x, y] + rest;
    assert s[0] == '%' && s[1] == x && s[2] == y;
  }

  /** An escape that does not decode makes the whole text fail, whatever plain text
      precedes it. */
  lemma EscapeFailureFails(p: string, t: string)
    requires '%' !in p && t != [] && t[0] == '%' && DecodeEscape(t).None?
    ensures DecodeComponent(p + t) == None
  {
    DecodeAfterPlain(p, t);
  }

  /** A `%` not followed by two hexadecimal digits does not decode. */
  lemma BadEscapeFails(p: string, t: string)
    requires '%' !in p && t != [] && t[0] == '%' && OctetAt(t, 0).None?
    ensures DecodeComponent(p + t) == None
  {
    EscapeFailureFails(p, t);
  }

  /** An escape below `%80` stands for that ASCII character. */
  lemma AsciiEscapeDecodes(x: char, y: char, rest: string)
    requires IsHexDigit(x) && IsHexDigit(y) && 16 * HexValue(x) + HexValue(y) < 0x80
    ensures DecodeEscape(['%', x, y] + rest) == Some(((16 * HexValue(x) + HexValue(y)) as char, 3))
  {
    OctetRead(x, y, rest);
  }

  /** A continuation octet (`%80` to `%BF`) cannot start a character. */
  lemma StrayContinuationFails(x: char, y: char, rest: string)
    requires IsHexDigit(x) && IsHexDigit(y)
    requires 0x80 <= 16 * HexValue(x) + HexValue(y) < 0xC0
    ensures DecodeEscape(['%', x, y] + rest) == None
  {
    OctetRead(x, y, rest);
  }

  /** A lead octet announcing a multi-octet character needs an escape right after it. */
  lemma LeadWithoutContinuationFails(x: char, y: char, rest: string)
    requires IsHexDigit(x) && IsHexDigit(y)
    requires 0xC0 <= 16 * HexValue(x) + HexValue(y) < 0xF8
    requires rest == [] || rest[0] != '%'
    ensures DecodeEscape(['%', x, y] + rest) == None
  {
    var s := ['%', x, y] + rest;
    OctetRead(x, y, rest);
    assert s[3..] == rest;
    assert OctetAt(rest, 0).None?;
  }

  /** Two escapes in a row are read as two octets. */
  lemma TwoOctetsRead(x: char, y: char, u: char, w: char, rest: string)
    requires IsHexDigit(x) && IsHexDigit(y) && IsHexDigit(u) && IsHexDigit(w)
    ensures var s := ['%', x, y, '%', u, w] + rest;
            && OctetAt(s, 0) == Some(16 * HexValue(x) + HexValue(y))
            && ReadOctets(s, 2) == Some([16 * HexValue(x) + HexValue(y), 16 * HexValue(u) + HexValue(w)])
  {
    var s := ['%', x, y, '%', u, w] + rest;
    var t := ['%', u, w] + rest;
    assert s == ['%', x, y] + t;
    OctetRead(x, y, t);
    OctetRead(u, w, rest);
    var lead, cont := 16 * HexValue(x) + HexValue(y), 16 * HexValue(u) + HexValue(w);
    assert s[3..] == t && t[3..] == rest;
    assert ReadOctets(rest, 0) == Some([]);
    assert [cont] + [] == [cont];
    assert ReadOctets(t, 1) == Some([cont]);
    assert [lead] + [cont] == [lead, cont];
  }

  /** Two escapes forming a well-formed two-octet sequence (lead `%C2` to `%DF`,
      continuation `%80` to `%BF`) stand for one character. */
  lemma TwoOctetEscapeDecodes(x: char, y: char, u: char, w: char, rest: string)
    requires IsHexDigit(x) && IsHexDigit(y) && IsHexDigit(u) && IsHexDigit(w)
    requires 0xC2 <= 16 * HexValue(x) + HexValue(y) < 0xE0
    requires 0x80 <= 16 * HexValue(u) + HexValue(w) < 0xC0
    ensures var lead, cont := 16 * HexValue(x) + HexValue(y), 16 * HexValue(u) + HexValue(w);
            DecodeEscape(['%', x, y, '%', u, w] + rest) == Some((((lead - 0xC0) * 64 + (cont - 0x80)) as char, 6))
  {
    TwoOctetsRead(x, y, u, w, rest);
  }

  /** A two-octet lead followed by an escape that is not a continuation octet fails. */
  lemma BadContinuationFails(x: char, y: char, u: char, w: char, rest: string)
    requires IsHexDigit(x) && IsHexDigit(y) && IsHexDigit(u) && IsHexDigit(w)
    requires 0xC0 <= 16 * HexValue(x) + HexValue(y) < 0xE0
    requires !(0x80 <= 16 * HexValue(u) + HexValue(w) < 0xC0)
    ensures DecodeEscape(['%', x, y, '%', u, w] + rest) == None
  {
    TwoOctetsRead(x, y, u, w, rest);
  }

  /** `%C0` and `%C1` only start overlong forms of ASCII characters, which fail. */
  lemma OverlongFails(x: char, y: char, u: char, w: char, rest: string)
    requires IsHexDigit(x) && IsHexDigit(y) && IsHexDigit(u) && IsHexDigit(w)
    requires 0xC0 <= 16 * HexValue(x) + HexValue(y) < 0xC2
    ensures DecodeEscape(['%', x, y, '%', u, w] + rest) == None
  {
    TwoOctetsRead(x, y, u, w, rest);
  }

  // ---------------------------------------------------------------- encoding

  /** The characters `encodeURIComponent` leaves alone: letters, digits and
      `- _ . ! ~ * ' ( )`. */
  predicate IsUnescaped(c: char) {
    || 'A' <= c <= 'Z' || 'a' <= c <= 'z' || '0' <= c <= '9'
    || c == '-' || c == '_' || c == '.' || c == '!' || c == '~'
    || c == '*' || c == '\'' || c == '(' || c == ')'
  }

  /** Octets written as `%XY` escapes with upper-case digits. */
  function PercentEncode(bs: seq<int>): (r: string)
    requires forall j :: 0 <= j < |bs| ==> IsOctet(bs[j])
    ensures |r| == 3 * |bs|
    ensures forall k :: 0 <= k < |r| ==> r[k] == '%' || IsHexDigit(r[k])
  {
    if bs == [] then ""
    else
      assert IsOctet(bs[0]);
      ['%', HexDigit(bs[0] / 16), HexDigit(bs[0] % 16)] + PercentEncode(bs[1..])
  }

  function EncodeChar(c: char): string {
    if IsUnescaped(c) then [c] else PercentEncode(Utf8(c as int))
  }

  /** `encodeURIComponent(s)`: every character outside the unescaped set becomes
      the escapes of its UTF-8 octets. The result holds only unescaped characters
      and `%`, so in particular no `"`, `;`, `&`, `#` or `/`. */
  function EncodeComponent(s: string): (r: string)
    ensures |r| >= |s|
    ensures forall k :: 0 <= k < |r| ==> IsUnescaped(r[k]) || r[k] == '%'
  {
    if s == [] then "" else EncodeChar(s[0]) + EncodeComponent(s[1..])
  }

  /** The escapes of a list of octets are read back as those octets. */
  lemma {:induction false} ReadPercentEncoded(bs: seq<int>, rest: string)
    requires forall j :: 0 <= j < |bs| ==> IsOctet(bs[j])
    ensures ReadOctets(PercentEncode(bs) + rest, |bs|) == Some(bs)
  {
    if bs != [] {
      var s := PercentEncode(bs) + rest;
      ReadPercentEncoded(bs[1..], rest);
      assert s[3..] == PercentEncode(bs[1..]) + rest;
      assert s[1] == HexDigit(bs[0] / 16) && s[2] == HexDigit(bs[0] % 16);
      assert OctetAt(s, 0) == Some(bs[0]);
      assert [bs[0]] + bs[1..] == bs;
    }
  }

  /** An escaped character is decoded back in one step. */
  lemma DecodeEncodedChar(c: char, rest: string)
    ensures DecodeComponent(EncodeChar(c) + rest) == Cons(c, DecodeComponent(rest))
  {
    var e := EncodeChar(c) + rest;
    if IsUnescaped(c) {
      assert e[1..] == rest;
    } else {
      var v := c as int;
      var bs := Utf8(v);
      Utf8Decodes(v);
      ReadPercentEncoded(bs, rest);
      assert e[0] == '%';
      assert OctetAt(e, 0) == Some(bs[0]);
      if |bs| == 1 {
        assert DecodeEscape(e) == Some((c, 3));
      } else {
        assert ReadOctets(e, |bs|) == Some(bs);
        assert DecodeEscape(e) == Some((c, 3 * |bs|));
      }
      assert e[3 * |bs|..] == rest;
    }
  }

  /** `decodeURIComponent(encodeURIComponent(s)) == s` for every string. */
  lemma {:induction false} DecodeEncode(s: string)
    ensures DecodeComponent(EncodeComponent(s)) == Some(s)
  {
    if s != [] {
      DecodeEncode(s[1..]);
      DecodeEncodedChar(s[0], EncodeComponent(s[1..]));
      assert [s[0]] + s[1..] == s;
    }
  }
}

=== FILE: wrappers.dfy ===
/** The optional value used throughout the model: `None` stands for JavaScript's
    `null` or `undefined` and for a call that threw. */
module Wrappers {

  datatype Option<+T> = None | Some(value: T) {

    /** The wrapped value, or `default` when there is none. */
    function GetOr(default: T): T {
      match this
      case Some(v) => v
      case None => default
    }
  }
}
